=== FILE: README.md ===
# badbit PE editor — a Dafny model

`badbit::Binary` edits a Windows Portable Executable image held as a byte
buffer. It locates the DOS header ("MZ" at offset 0), follows e_lfanew to the
NT headers ("PE\0\0"), and enumerates the section descriptors that follow the
optional header. Each descriptor is 40 bytes and must have a name starting
with '.'. It can then:

- look a section up by name;
- delete a section, removing its 40-byte descriptor and its raw bytes and
  repairing the other descriptors' PointerToRawData and VirtualSize;
- strip the debug directory by zeroing the debug payload, the debug records
  and the debug data-directory entry;
- read or write a scalar at an address in the buffer.

The constructor also keeps the file name, which is the path after its last
'/' or '\'.

The model is a set of pure functions over `seq<byte>`. Descriptors are
decoded into value records rather than kept as pointers into the buffer.
Every thrown exception becomes an `Err` of a small error taxonomy
(`results.dfy`), and so does the false return of a refused `ReadBuffer` or
`WriteBuffer`. A signature mismatch in `FindDosHeader` or `FindNtHeaders`
stays a result, `Ok(false)`. The object itself is the `Binary.Image`
datatype, and each method maps the old image to a `Step`: the new image plus
the result.

| file | module | what it holds |
|---|---|---|
| bytes.dfy | Bytes | bytes, little-endian fields, DWORD wrap-around, overwrite / zero-fill / excise (`memset`, `vector::erase`) |
| results.dfy | Results | error taxonomy, `Result`, `Option` |
| headers.dfy | Headers | DOS and NT signature checks, e_lfanew, NumberOfSections, first-descriptor offset |
| sections.dfy | Sections | descriptor codec, table location, enumeration, lookup by name |
| editor.dfy | Editor | section deletion and its fixups, plus the source's erase and aliasing as written |
| debug.dfy | Debug | debug data-directory entry, RVA translation, clearing |
| access.dfy | Access | `ReadBuffer` / `WriteBuffer` |
| paths.dfy | Paths | the file name taken from the path |
| binary.dfy | Binary | the object's state and its methods |

Two behaviours follow the code as written:

- `FindDosHeader` and `FindNtHeaders` return false on a signature mismatch
  rather than failing, and they still record the header position.
- The debug directory counts as absent when its Size OR its VirtualAddress
  is zero, not only when both are.

## Model

| member | source | states |
|---|---|---|
| Bytes.Dword | include/badbit.hpp:221 | a DWORD field that is decremented keeps its value modulo 2^32: unchanged when in range, plus 2^32 when the difference is negative |
| Bytes.DecodeEncode | include/badbit.hpp:179-186 | a scalar stored little-endian in `width` bytes reads back as the stored value |
| Bytes.EncodeDecode | include/badbit.hpp:170-177 | any `width` bytes are the encoding of the value read from them, so re-storing a read value restores the bytes |
| Bytes.ZeroFill | include/badbit.hpp:156-159 | `memset(p + off, 0, n)`: the bytes in range read zero, every other byte and the length are kept |
| Bytes.Excise | include/badbit.hpp:228-231 | `vector::erase(begin + lo, begin + hi)`: the length drops by `hi - lo`, bytes before `lo` are kept, later bytes move down by `hi - lo` |
| Bytes.WriteLE | include/badbit.hpp:162-163 | storing a header field changes only that field's bytes, and the field reads back the stored value |
| Bytes.ExciseCommute | include/badbit.hpp:228-245 | removing two disjoint ranges gives the same buffer in either order once the higher range's offsets are shifted, which is why the raw data can be cut before the descriptor slot |
| Headers.CheckDosSignature | include/badbit.hpp:83-85 | accepted exactly when the buffer starts with 'M','Z'; otherwise a bad DOS signature |
| Headers.NtHeadersOffset | include/badbit.hpp:96 | the NT headers are at the signed e_lfanew; refused as truncated when the DOS header is incomplete or e_lfanew leaves no room for the signature |
| Headers.LocateStamped | include/badbit.hpp:83-98 | a buffer stamped with "MZ", e_lfanew = `nt` and "PE\0\0" passes both checks and resolves to `nt` |
| Sections.DecodeEncodeSection | include/badbit.hpp:116-132 | a descriptor encoded into its 40-byte layout decodes to the same record |
| Sections.EncodeDecodeSection | include/badbit.hpp:116-132 | any 40 bytes decoded and re-encoded are the same bytes |
| Sections.LocateTable | include/badbit.hpp:116-119 | the first descriptor follows the optional header (nt + 0x18 + SizeOfOptionalHeader) and there are NumberOfSections of them; the table is located exactly when the file header and the whole table lie in the buffer, and is otherwise truncated |
| Sections.FirstUndotted | include/badbit.hpp:119-127 | the first descriptor from `i` on whose name lacks the '.': all before it are dotted, and it is not |
| Sections.Walk | include/badbit.hpp:119-133 | succeeds exactly when every descriptor is dotted, yielding the decoded descriptors in file order; otherwise fails naming the first invalid index |
| Sections.WalkAgrees | include/badbit.hpp:119-133 | the walk reads nothing but the descriptor slots: two tables whose slots agree walk alike |
| Sections.SameTableParses | include/badbit.hpp:116-133 | enumeration reads only NumberOfSections, SizeOfOptionalHeader and the table, so buffers that agree there enumerate alike |
| Sections.ParseSections | include/badbit.hpp:103-136 | the enumeration succeeds iff the table lies in the buffer and every descriptor is dotted; it yields NumberOfSections records, each the decoding of its slot; an unlocated table is truncated, and otherwise a failure names the first invalid index |
| Sections.ParseSectionsExact | include/badbit.hpp:119-133 | converse: a located table whose slots decode to dotted records `table` enumerates as exactly `table` |
| Sections.EncodeTableSlot | include/badbit.hpp:132 | descriptor `i` of a table laid out back to back starts 0x28 * i bytes in |
| Sections.WrittenTableDecodes | include/badbit.hpp:130-132 | descriptors written back into the table read back as the same records |
| Sections.CName | include/badbit.hpp:251 | the name as a C string: the NUL-free prefix of the 8-byte field, ending at the first NUL |
| Sections.PadNameRoundTrip | include/badbit.hpp:251 | a NUL-free name of at most 8 bytes, NUL-padded into the field, reads back as itself |
| Sections.FindByName | include/badbit.hpp:250-252 | the index of the first descriptor carrying the name; none exactly when no descriptor carries it |
| Sections.GetSection | include/badbit.hpp:248-256 | found iff some descriptor carries the name, and then it is the first such descriptor; otherwise not found |
| Editor.RemoveAtSplices | include/badbit.hpp:199 | erasing entry `k` leaves the entries before and after it in order, and loses that entry and no other (as multisets) |
| Editor.FixRawPointersOnlyPointer | include/badbit.hpp:219-222 | only PointerToRawData changes; a pointer not above the deleted one is kept, and adding back the deleted SizeOfRawData modulo 2^32 restores any lowered one |
| Editor.CloseGapsMeetsSuccessor | include/badbit.hpp:234-237 | only VirtualSize changes; each repaired descriptor now ends, modulo 2^32, exactly where the next one begins, and the others are kept |
| Editor.RemainingFields | include/badbit.hpp:194-237 | survivor `i` is old descriptor `i` (or `i + 1` past the deleted one) with name, VirtualAddress, SizeOfRawData and trailing fields kept, the pointer fixed up and the VirtualSize gap closed to the next survivor |
| Editor.DeleteFixups | include/badbit.hpp:219-237 | every survivor carries exactly these fixups, with its VirtualSize measured to the next survivor's VirtualAddress |
| Editor.CutRawData | include/badbit.hpp:245 | the deleted section's raw bytes are removed and every other byte keeps its relative order |
| Editor.CutAndRecountFacts | include/badbit.hpp:228-240 | after cutting the slot and the raw data, NumberOfSections reads one less, every byte before the table except that field is kept, and every byte past the new table end is the old byte it came from |
| Editor.RebuildFacts | include/badbit.hpp:219-245 | the rebuilt buffer holds the decremented count, the kept prefix, the shifted tail, and the survivors in the table slots |
| Editor.DeleteAt | include/badbit.hpp:188-245 | a deletion reports the deleted index and record, one survivor fewer, and a buffer shorter by 0x28 plus the deleted SizeOfRawData |
| Editor.Delete | include/badbit.hpp:188-246 | an enumeration error is passed on; an unknown name is not found; raw data outside the buffer or overlapping the headers is refused; a success deletes the first descriptor carrying the name |
| Editor.DeleteParts | include/badbit.hpp:188-246 | every successful deletion is `DeleteAt` on the enumerated table at the first matching descriptor |
| Editor.DeleteSucceeds | include/badbit.hpp:188-246 | converse: a matched name whose raw data is placed is always deleted |
| Editor.DeleteUnknownName | include/badbit.hpp:194-209 | a deletion is refused as not found exactly when no descriptor carries the name |
| Editor.RemainingDotted | include/badbit.hpp:124 | survivors keep their names, so the remaining table still passes the '.' check |
| Editor.RebuildParses | include/badbit.hpp:228-240 | the rebuilt buffer enumerates as exactly the survivors written back |
| Editor.DeleteShrinksTable | include/badbit.hpp:213-245 | a deletion lowers the count by one and the length by 0x28 plus SizeOfRawData, and re-enumeration yields exactly the survivors |
| Editor.DeleteKeepsRest | include/badbit.hpp:228-245 | outside the table only NumberOfSections changes, and the bytes after the table are the old ones minus the deleted raw data |
| Editor.RawDataMoves | include/badbit.hpp:228-245 | each survivor's raw bytes reappear intact, moved down by 0x28 and by the deleted size when they lay above it |
| Editor.FixedPointerOffset | include/badbit.hpp:219-221 | the fixed-up pointer is where the survivor's raw data moved, plus 0x28 unless the pointers are rebased |
| Editor.StaleRawPointer | include/badbit.hpp:219-231 | with the source's fixup, a survivor's raw data lies 0x28 bytes before its new PointerToRawData |
| Editor.RebasedRawDataFollows | include/badbit.hpp:219-231 | with the rebased fixup, every survivor's PointerToRawData addresses its own raw data |
| Editor.EraseAsWritten | include/badbit.hpp:228-245 | the two erasures as written: the result is the buffer with the 0x28-byte slot removed and then, in that shortened buffer, the bytes from PointerToRawData up to SizeOfRawData removed; defined exactly when that range is ordered and inside the shortened buffer, otherwise refused as out of range |
| Editor.EraseAsWrittenWrongLength | include/badbit.hpp:245 | for every section with raw data, the erasure as written is undefined or leaves a different length than the intended deletion |
| Editor.AliasedGapRepairWrong | include/badbit.hpp:227-237 | the VirtualSize the source stores before the deleted section spans to the section after its successor, not to the successor itself |
| Debug.DataDirectoriesOffset | include/badbit.hpp:142 | the data directories start 96 bytes into a PE32 optional header and 112 into PE32+; any other magic is refused |
| Debug.DebugEntryOffset | include/badbit.hpp:142 | the debug entry is data directory 6; it is found exactly when the Magic is PE32 or PE32+ and the entry lies in the buffer, and is otherwise refused as an unknown magic, or as truncated when the Magic or the entry lies past the buffer |
| Debug.FindContaining | include/badbit.hpp:152 | the first section whose virtual range holds the address; none exactly when no section holds it |
| Debug.MapRva | include/badbit.hpp:152 | the debug VirtualAddress is translated through the section table the NT headers announce: exactly the table's translation when the table is located, and the table's truncated refusal otherwise |
| Debug.RvaToOffset | include/badbit.hpp:152 | an address maps iff some section's virtual range holds it, and then to that section's raw offset plus the distance in |
| Debug.RvaInSection | include/badbit.hpp:152 | in an image whose sections do not overlap, every address inside a section maps into that section's raw data at the same distance |
| Debug.LocateDebug | include/badbit.hpp:142-159 | no debug directory exactly when its VirtualAddress or Size is zero; otherwise an unmappable VirtualAddress is refused, and a mapped one locates the records, the payload the first record names and the entry exactly when they lie in the buffer and the records and payload lie past the headers, and is otherwise refused as out of range |
| Debug.ClearSite | include/badbit.hpp:156-163 | exactly the payload, the records and the entry's 8 bytes read zero; every other byte and the length are kept |
| Debug.ClearDebug | include/badbit.hpp:139-168 | an image without a debug directory is returned unchanged; otherwise exactly the located bytes are zeroed; refusals are those of locating |
| Debug.ClearSiteZeroesEntry | include/badbit.hpp:162-163 | after clearing, the debug entry's VirtualAddress and Size both read zero |
| Debug.ClearedHasNoDebug | include/badbit.hpp:144-163 | a cleared image has no debug directory |
| Debug.ClearDebugIdempotent | include/badbit.hpp:139-168 | clearing twice is clearing once |
| Debug.ClearKeepsSections | include/badbit.hpp:156-163 | when the debug entry lies before the table, clearing leaves the enumeration unchanged |
| Access.ReadBuffer | include/badbit.hpp:170-177 | a read succeeds iff the scalar lies in the buffer, and returns the value whose encoding is exactly the bytes there |
| Access.WriteBuffer | include/badbit.hpp:179-186 | a write succeeds iff the scalar lies in the buffer; then the scalar's bytes are the value's encoding and every other byte is kept |
| Access.ReadAfterWrite | include/badbit.hpp:170-186 | reading after a write returns the written value |
| Access.ReadElsewhere | include/badbit.hpp:170-186 | a write does not change any scalar outside its range |
| Access.WriteWhatWasRead | include/badbit.hpp:170-186 | writing back the value just read leaves the buffer unchanged |
| Access.LastWriteWins | include/badbit.hpp:179-186 | of two writes to the same scalar only the second is visible |
| Access.DisjointWritesCommute | include/badbit.hpp:179-186 | writes to disjoint scalars commute |
| Paths.LastSeparator | include/badbit.hpp:70 | the position of the last '/' or '\'; none exactly when the path has no separator |
| Paths.FileName | include/badbit.hpp:70 | a separator-free suffix of the path, preceded by a separator whenever it is shorter than the path |
| Paths.FileNameOfJoin | include/badbit.hpp:70 | a name joined to any directory by a separator is recovered |
| Paths.FileNameIdempotent | include/badbit.hpp:70 | a file name is its own file name |
| Binary.Load | include/badbit.hpp:68-73 | a new object holds the file's bytes and the file name, has located nothing and listed no sections |
| Binary.FindDosHeader | include/badbit.hpp:76-86 | refused without a buffer; otherwise the DOS header is recorded and the result says whether it starts with "MZ" |
| Binary.FindNtHeaders | include/badbit.hpp:89-99 | refused before the DOS header is located; a buffer shorter than the DOS header, or an e_lfanew that is negative or leaves no room for the signature, is refused as truncated; otherwise the NT headers are recorded at e_lfanew and the result says whether they start with "PE\0\0" |
| Binary.FindSections | include/badbit.hpp:103-136 | refused on a repeat without allowMultipleInit or before the NT headers are located; on success the list is the enumeration and the object remembers it; an enumeration failure (truncated table, or the first invalid index) is passed on, and a failure changes nothing |
| Binary.GetSection | include/badbit.hpp:248-256 | found iff a listed descriptor carries the name, and then it is a copy of the first such descriptor in the list; otherwise not found, in particular before enumeration |
| Binary.DeleteSection | include/badbit.hpp:188-246 | not found before enumeration; otherwise the deletion's buffer and survivors replace the old ones, the deletion's error is passed on, and a failure changes nothing |
| Binary.ClearDebugDirectory | include/badbit.hpp:139-168 | refused before the NT headers are located; otherwise true with the cleared buffer, or the clearing's error passed on, and a failure changes nothing |
| Binary.ReadBuffer | include/badbit.hpp:170-177 | reading leaves the object unchanged, succeeds iff the scalar lies in the buffer, and returns the scalar whose encoding is the bytes read; otherwise out of bounds |
| Binary.WriteBuffer | include/badbit.hpp:179-186 | a write succeeds iff the scalar lies in the buffer; it then changes only the buffer, stores the value's encoding at the scalar and keeps every other byte; a refused write is out of bounds and changes nothing |
| Binary.WriteOutsideTableKeepsConsistency | include/badbit.hpp:179-186 | a write that misses NumberOfSections, SizeOfOptionalHeader and the section table keeps the list equal to the enumeration of the buffer |
| Binary.WriteOutsideTableParses | include/badbit.hpp:116-133 | buffers that differ only inside a range apart from those fields and the table enumerate alike |
| Binary.FindSectionsTwiceRefused | include/badbit.hpp:101-108 | after one enumeration, a second without allowMultipleInit is refused and changes nothing |
| Binary.FindSectionsAgain | include/badbit.hpp:101-136 | re-enumerating with allowMultipleInit yields the same list rather than a longer one |
| Binary.DeletePreservesConsistency | include/badbit.hpp:188-246 | after a deletion the list still equals the enumeration of the buffer and is one shorter |
| Binary.DeleteUnknownNameUnchanged | include/badbit.hpp:194-209 | deleting a name no listed descriptor carries is refused and changes nothing |
| Binary.SurvivorsLackName | include/badbit.hpp:194-199 | when only the deleted descriptor carried a name, no survivor carries it |
| Binary.DeleteThenGetMissing | include/badbit.hpp:188-256 | after deleting the only section with a name, looking that name up finds nothing |
| Binary.ClearDebugDirectoryIdempotent | include/badbit.hpp:139-168 | clearing the debug directory twice is clearing it once |
| Binary.ClearPreservesConsistency | include/badbit.hpp:139-168 | clearing keeps the list equal to the enumeration when the debug entry lies before the table |
| Binary.FindSectionsAsWritten | include/badbit.hpp:103-136 | the enumeration as written: the list grows by the enumerated descriptors; on an invalid descriptor it keeps the valid ones before it and the error is passed on; the repeat guard reads a flag nothing sets |
| Binary.FindSectionsAsWrittenRepeats | include/badbit.hpp:103-136 | as written, a second call without allowMultipleInit is not refused and lists every descriptor twice |
| Binary.FindSectionsRefusesRepeat | include/badbit.hpp:101-108 | the corrected enumeration refuses that second call |

## Left out

- Reading the file (`vecReadFile`) and `Save` are I/O. `Binary.Load` takes the file's bytes as a parameter, and the serializer is not modelled.
- Logging (include/lightlog.hpp) and string obfuscation (`xorstr_`) are not part of this model.
- `IsBadWritePtr` is a foreign call. `Access.ReadBuffer` and `Access.WriteBuffer` replace it with the check that the whole scalar lies in the buffer. Addresses are offsets from the buffer's base, and `T` is an unsigned little-endian scalar of `width` bytes.
- Access.WriteBuffer: the source declares `-> void` but returns a bool, and it applies `sizeof *` to a non-pointer. The model gives the evident intent, success or `OutOfBounds`.
- Debug.RvaToOffset: `Rva::RvaToOffset` is not part of this model. The conventional translation is used: the first section whose virtual range holds the address, plus the distance into that section's raw data.
- Debug.LocateDebug: bounds the source does not check are added. A debug record, payload or entry that lies outside the buffer is refused as `RangeOutOfBounds`, where the source writes out of bounds. A payload or record that overlaps the headers or the section table is refused as well, where the source zeroes those header bytes in place. `ClearDebugDirectory` also does not check that the NT headers were located, and the model refuses that case.
- Debug.DebugEntryOffset: the source reads the data directories through the build's own IMAGE_NT_HEADERS layout (PE32 or PE32+, fixed at compile time). The model picks the layout from OptionalHeader.Magic, refuses any other Magic as an unknown magic, and refuses an entry past the buffer as truncated.
- Sections.LocateTable: a file header or section table that runs past the buffer is refused as truncated, where the source reads past the buffer (include/badbit.hpp:116-124).
- Sections.CName: the name is read only up to the 8 bytes of the Name field. The source's `std::string((char*)Name)` (include/badbit.hpp:196, 251) runs on into VirtualSize when all 8 name bytes are non-NUL, as for `.textbss`. There the source may fail to match the 8-byte name, or match a longer query, and the model does neither.
- Debug.ClearDebug: like the source, only the first debug record's payload is zeroed. The other records' payloads stay.
- Editor.Delete: the source's loop erases from the list while iterating. It keeps the LAST matching descriptor it visits, removes every match it visits from the list, and skips the entry after each erased one. Its `index` is a list position after the earlier erasures, so with two non-adjacent descriptors of the same name the table slot it erases belongs to a different descriptor than the raw data it erases. The model deletes the FIRST matching descriptor, which is the same section when names are unique, as they are in linker output.
- Editor.Delete: a deletion whose raw data lies inside the headers or past the buffer is refused as `RangeOutOfBounds`, where the source's erase is undefined or removes an unrelated range (first row under Findings).
- Binary.DeleteSection: the source falls off the end of a `-> bool` function. Success is modelled as returning the deleted descriptor.
- Binary.DeleteSection: it applies the corrected, rebased pointer fixup (`Editor.DeleteSectionRebased`), where the source lowers the pointers only by the deleted SizeOfRawData (include/badbit.hpp:219-222). The fixup as written is `Editor.Delete` without rebasing, and the difference is the second row under Findings.
- Binary.DeleteSection: SizeOfImage, SizeOfHeaders and the other optional-header totals are not updated, as in the source. Data directories that point into the deleted section are not touched either.
- Binary.FindDosHeader: a one-byte buffer reports a mismatch, where the source reads `e_magic` past the end of the buffer.
- Binary.FindNtHeaders: three cases are refused as truncated where the source reads outside the buffer: a buffer shorter than the 0x40-byte DOS header, a negative e_lfanew, and an e_lfanew that leaves no room for the signature.
- Binary.FindSections: a failed enumeration changes nothing, where the source keeps the descriptors it pushed before the invalid one. `Binary.FindSectionsAsWritten` models that partial list.
- The pointer mechanics of `vSections` are modelled by value records. Of the aliasing, only the virtual-size repair after the slot erase is modelled (`Editor.AliasedRecord`, third row under Findings).
- Binary.DeleteSection: after a deletion the list holds the surviving records. In the source, list entry `m >= k` still points at the same address, which now holds old record `m + 2` (include/badbit.hpp:199, 228, 251). The successor of the deleted section is then reached by no entry, so a later `GetSection` of its name fails in the source while the model finds it.
- Binary.WriteBuffer: the list is not refreshed after a write. In the source, list entries point into the buffer (include/badbit.hpp:27, 130), so a later `GetSection` sees a write into the section table. In the model the list keeps the old records, and `DeleteSection` enumerates the buffer again. The two agree when the write misses NumberOfSections, SizeOfOptionalHeader and the table (`Binary.WriteOutsideTableKeepsConsistency`), and this is not promised otherwise.

## Findings

| source | as written | input that shows it | evidently intended | confidence | as-written member | corrected member |
|---|---|---|---|---|---|---|
| include/badbit.hpp:245 | `erase(begin + PointerToRawData, begin + SizeOfRawData)`, run on the buffer already shortened by the slot erase | a section with PointerToRawData 0x400 and SizeOfRawData 0x200: the range [0x400, 0x200) is reversed | `erase(begin + PointerToRawData, begin + PointerToRawData + SizeOfRawData)`, on offsets still valid when it runs | not executed | Editor.EraseAsWrittenWrongLength | Editor.DeleteShrinksTable |
| include/badbit.hpp:219-231 | surviving pointers are lowered only by the deleted SizeOfRawData, although the slot erase moves all raw data down by 0x28 | any survivor whose raw data lies after the table: its bytes move 0x28 lower than its new PointerToRawData | pointers at or past the table end are also lowered by 0x28 | not executed | Editor.StaleRawPointer | Editor.RebasedRawDataFollows |
| include/badbit.hpp:227-237 | the VirtualSize repair runs after the slot erase, through pointers that now address the record one slot further on | sections at VirtualAddress 0x1000, 0x2000, 0x3000, 0x4000; deleting the second gives the first VirtualSize 0x3000 | the first gets VirtualSize 0x2000, the distance to its new successor | not executed | Editor.AliasedGapRepairWrong | Editor.DeleteFixups |
| include/badbit.hpp:103-136 | `bInitializedSections` is checked but never set, and each call appends to `vSections` | calling `FindSections()` twice: the second call is not refused and lists every section twice | the first successful call sets the flag, so the second is refused | not executed | Binary.FindSectionsAsWrittenRepeats | Binary.FindSectionsRefusesRepeat |

=== FILE: access.dfy ===
/** `ReadBuffer` and `WriteBuffer`: a scalar of `width` bytes read from, or
    stored into, the image buffer at an address given relative to the
    buffer's base (x86 stores scalars least significant byte first). The
    writability probe becomes the check that the whole scalar lies inside
    the buffer; a refused access is `Err(OutOfBounds)` where the source
    returns false. */
module Access {
  import opened Bytes
  import opened Results

  /** The `width` bytes at `at` (an offset from the buffer's base) all lie
      inside a buffer of `size` bytes. */
  predicate InBuffer(size: nat, at: int, width: nat)
  {
    0 <= at && at + width <= size
  }

  /** The scalar stored at `at`: the value whose encoding is exactly the
      bytes found there. */
  function ReadBuffer(buf: seq<byte>, at: int, width: nat): (r: Result<nat>)
    ensures r.Ok? <==> InBuffer(|buf|, at, width)
    ensures r.Ok? ==> r.value < Pow256(width) && EncodeLE(r.value, width) == buf[at .. at + width]
    ensures r.Err? ==> r.error == OutOfBounds
  {
    if !InBuffer(|buf|, at, width) then Err(OutOfBounds)
    else
      EncodeDecode(buf[at .. at + width]);
      Ok(ReadLE(buf, at, width))
  }

  /** The buffer with `v` stored at `at`; every other byte is kept. */
  function WriteBuffer(buf: seq<byte>, at: int, width: nat, v: nat): (r: Result<seq<byte>>)
    requires v < Pow256(width)
    ensures r.Ok? <==> InBuffer(|buf|, at, width)
    ensures r.Ok? ==> && |r.value| == |buf|
                      && r.value[at .. at + width] == EncodeLE(v, width)
                      && forall i {:trigger r.value[i]} :: 0 <= i < |buf| && !(at <= i < at + width) ==> r.value[i] == buf[i]
    ensures r.Err? ==> r.error == OutOfBounds
  {
    if !InBuffer(|buf|, at, width) then Err(OutOfBounds)
    else Ok(Overwrite(buf, at, EncodeLE(v, width)))
  }

  /** A read after a successful write returns the value written. */
  lemma ReadAfterWrite(buf: seq<byte>, at: int, width: nat, v: nat)
    requires v < Pow256(width)
    requires WriteBuffer(buf, at, width, v).Ok?
    ensures ReadBuffer(WriteBuffer(buf, at, width, v).value, at, width) == Ok(v)
  {
    var w := WriteBuffer(buf, at, width, v).value;
    DecodeEncode(v, width);
    assert w[at .. at + width] == EncodeLE(v, width);
  }

  /** A write leaves every scalar outside its range reading as before. */
  lemma ReadElsewhere(buf: seq<byte>, at: int, width: nat, v: nat, at2: int, width2: nat)
    requires v < Pow256(width)
    requires WriteBuffer(buf, at, width, v).Ok?
    requires at2 + width2 <= at || at + width <= at2
    ensures ReadBuffer(WriteBuffer(buf, at, width, v).value, at2, width2) == ReadBuffer(buf, at2, width2)
  {
    var w := WriteBuffer(buf, at, width, v).value;
    if InBuffer(|buf|, at2, width2) {
      ReadAgree(w, buf, at2, width2);
    }
  }

  /** Writing back the value just read leaves the buffer as it was. */
  lemma WriteWhatWasRead(buf: seq<byte>, at: int, width: nat)
    requires ReadBuffer(buf, at, width).Ok?
    ensures WriteBuffer(buf, at, width, ReadBuffer(buf, at, width).value) == Ok(buf)
  {
    var v := ReadBuffer(buf, at, width).value;
    var w := WriteBuffer(buf, at, width, v).value;
    assert forall i :: at <= i < at + width ==> w[i] == w[at .. at + width][i - at];
    assert w == buf;
  }

  /** Of two writes to the same scalar, only the second is visible. */
  lemma LastWriteWins(buf: seq<byte>, at: int, width: nat, v1: nat, v2: nat)
    requires v1 < Pow256(width) && v2 < Pow256(width)
    requires WriteBuffer(buf, at, width, v1).Ok?
    ensures WriteBuffer(WriteBuffer(buf, at, width, v1).value, at, width, v2) == WriteBuffer(buf, at, width, v2)
  {
    var w1 := WriteBuffer(buf, at, width, v1).value;
    var w12 := WriteBuffer(w1, at, width, v2).value;
    var w2 := WriteBuffer(buf, at, width, v2).value;
    assert forall i :: at <= i < at + width ==> w12[i] == w12[at .. at + width][i - at];
    assert forall i :: at <= i < at + width ==> w2[i] == w2[at .. at + width][i - at];
    assert w12 == w2;
  }

  /** Writes to disjoint scalars can be made in either order. */
  lemma DisjointWritesCommute(buf: seq<byte>, a: int, wa: nat, va: nat, b: int, wb: nat, vb: nat)
    requires va < Pow256(wa) && vb < Pow256(wb)
    requires WriteBuffer(buf, a, wa, va).Ok? && WriteBuffer(buf, b, wb, vb).Ok?
    requires a + wa <= b || b + wb <= a
    ensures WriteBuffer(WriteBuffer(buf, a, wa, va).value, b, wb, vb)
         == WriteBuffer(WriteBuffer(buf, b, wb, vb).value, a, wa, va)
  {
    var x := WriteBuffer(WriteBuffer(buf, a, wa, va).value, b, wb, vb).value;
    var y := WriteBuffer(WriteBuffer(buf, b, wb, vb).value, a, wa, va).value;
    assert forall i :: a <= i < a + wa ==> x[i] == EncodeLE(va, wa)[i - a];
    assert forall i :: a <= i < a + wa ==> y[i] == y[a .. a + wa][i - a];
    assert forall i :: b <= i < b + wb ==> y[i] == EncodeLE(vb, wb)[i - b];
    assert forall i :: b <= i < b + wb ==> x[i] == x[b .. b + wb][i - b];
    assert x == y;
  }
}

=== FILE: binary.dfy ===
/** `badbit::Binary`: the loaded image together with what the locating
    calls have found so far. Every method becomes a function from the old
    state to a `Step`: the new state and either the method's return value
    or the error the source throws. The descriptor list holds decoded
    records rather than pointers into the buffer. */
module Binary {
  import opened Bytes
  import opened Results
  import opened Headers
  import opened Sections
  import Editor
  import Debug
  import Access
  import Paths

  /** The object's fields: FilePath, FileName, vBuffer, whether pDosHeader
      and pNtHeaders were set (the latter with its offset from the buffer's
      base), vSections, and bInitializedSections. */
  datatype Image = Image(
    path: string,
    fileName: string,
    buffer: seq<byte>,
    dosLocated: bool,
    ntHeaders: Option<nat>,
    sections: seq<SectionHeader>,
    sectionsInitialized: bool)
  {
    /** The descriptor list is the enumeration of the current buffer once it
        has been taken, and empty before. */
    predicate Consistent()
    {
      if sectionsInitialized
      then ntHeaders.Some? && ParseSections(buffer, ntHeaders.value) == Ok(sections)
      else sections == []
    }
  }

  /** The state after a call and what the call returned or threw. */
  datatype Step<+T> = Step(image: Image, result: Result<T>)

  /** The constructor, given the bytes the file holds. */
  function Load(path: string, contents: seq<byte>): (img: Image)
    ensures img.fileName == Paths.FileName(path) && img.buffer == contents
    ensures !img.dosLocated && img.ntHeaders.None? && !img.sectionsInitialized
    ensures img.Consistent()
  {
    Image(path, Paths.FileName(path), contents, false, None, [], false)
  }

  /** `FindDosHeader`: refused when there is no buffer; otherwise the DOS
      header is taken to be at the base, and the result says whether it
      starts with "MZ". */
  function FindDosHeader(img: Image): (s: Step<bool>)
    ensures s.result.Err? <==> |img.buffer| == 0
    ensures s.result.Err? ==> s.result.error == NoImage && s.image == img
    ensures s.result.Ok? ==> && s.image == img.(dosLocated := true)
                             && (s.result.value <==> |img.buffer| >= 2 && img.buffer[0] == 0x4D && img.buffer[1] == 0x5A)
  {
    if |img.buffer| == 0 then Step(img, Err(NoImage))
    else Step(img.(dosLocated := true), Ok(CheckDosSignature(img.buffer).Ok?))
  }

  /** `FindNtHeaders`: refused before the DOS header is located; otherwise
      the NT headers are taken to be at e_lfanew, and the result says
      whether they start with "PE\0\0". An e_lfanew that leaves no room for
      the signature is `Truncated`. */
  function FindNtHeaders(img: Image): (s: Step<bool>)
    ensures |img.buffer| == 0 ==> s == Step(img, Err(NoImage))
    ensures |img.buffer| > 0 && !img.dosLocated ==> s == Step(img, Err(HeadersNotLocated))
    ensures s.result.Ok? <==> |img.buffer| > 0 && img.dosLocated && NtHeadersOffset(img.buffer).Ok?
    ensures s.result.Err? ==> s.image == img
    ensures |img.buffer| > 0 && img.dosLocated && NtHeadersOffset(img.buffer).Err? ==>
              s.result == Err(NtHeadersOffset(img.buffer).error)
    ensures s.result.Ok? ==>
      var nt := NtHeadersOffset(img.buffer).value;
      && s.image == img.(ntHeaders := Some(nt))
      && nt == Lfanew(img.buffer)
      && (s.result.value <==> img.buffer[nt .. nt + 4] == NtSignature)
  {
    if |img.buffer| == 0 then Step(img, Err(NoImage))
    else if !img.dosLocated then Step(img, Err(HeadersNotLocated))
    else match NtHeadersOffset(img.buffer)
      case Err(e) => Step(img, Err(e))
      case Ok(nt) => Step(img.(ntHeaders := Some(nt)), Ok(HasNtSignature(img.buffer, nt)))
  }

  /** `FindSections`: refused when the table was enumerated before and
      `allowMultipleInit` is false, or before the NT headers are located;
      otherwise the descriptors are enumerated. On success the list is
      replaced and the object remembers the enumeration; on failure nothing
      changes. The result is the enumerated list. */
  function FindSections(img: Image, allowMultipleInit: bool): (s: Step<seq<SectionHeader>>)
    ensures img.sectionsInitialized && !allowMultipleInit ==> s == Step(img, Err(DuplicateInit))
    ensures (!img.sectionsInitialized || allowMultipleInit) && img.ntHeaders.None? ==> s == Step(img, Err(HeadersNotLocated))
    ensures s.result.Ok? <==> && (!img.sectionsInitialized || allowMultipleInit) && img.ntHeaders.Some?
                              && ParseSections(img.buffer, img.ntHeaders.value).Ok?
    ensures s.result.Err? ==> s.image == img
    ensures (!img.sectionsInitialized || allowMultipleInit) && img.ntHeaders.Some?
              && ParseSections(img.buffer, img.ntHeaders.value).Err? ==>
              s.result == Err(ParseSections(img.buffer, img.ntHeaders.value).error)
    ensures s.result.Ok? ==> && s.result == ParseSections(img.buffer, img.ntHeaders.value)
                             && s.image == img.(sections := s.result.value, sectionsInitialized := true)
                             && s.image.Consistent()
  {
    if img.sectionsInitialized && !allowMultipleInit then Step(img, Err(DuplicateInit))
    else if img.ntHeaders.None? then Step(img, Err(HeadersNotLocated))
    else match ParseSections(img.buffer, img.ntHeaders.value)
      case Err(e) => Step(img, Err(e))
      case Ok(table) => Step(img.(sections := table, sectionsInitialized := true), Ok(table))
  }

  /** `GetSection`: the first listed descriptor whose name is `name`; an
      empty list (sections not enumerated yet) finds nothing. */
  function GetSection(img: Image, name: seq<byte>): (s: Step<SectionHeader>)
    ensures s.image == img
    ensures s.result.Ok? <==> exists j :: 0 <= j < |img.sections| && Matches(img.sections[j], name)
    ensures s.result.Ok? ==> Matches(s.result.value, name)
    ensures s.result.Ok? ==> exists k :: && 0 <= k < |img.sections| && s.result.value == img.sections[k]
                                        && forall j :: 0 <= j < k ==> !Matches(img.sections[j], name)
    ensures s.result.Err? ==> s.result.error == NotFound
    ensures img.Consistent() && !img.sectionsInitialized ==> s.result == Err(NotFound)
  {
    Step(img, Sections.GetSection(img.sections, name))
  }

  /** `DeleteSection`: refused before enumeration (the list is empty, so no
      descriptor carries the name); otherwise the descriptor and its raw
      data are cut from the buffer with pointers rebased, and the list
      becomes the surviving records. Nothing changes on failure. */
  function DeleteSection(img: Image, name: seq<byte>): (s: Step<SectionHeader>)
    ensures !img.sectionsInitialized ==> s == Step(img, Err(NotFound))
    ensures s.result.Err? ==> s.image == img
    ensures img.sectionsInitialized && img.ntHeaders.Some?
              && Editor.DeleteSectionRebased(img.buffer, img.ntHeaders.value, name).Err? ==>
              s.result == Err(Editor.DeleteSectionRebased(img.buffer, img.ntHeaders.value, name).error)
    ensures s.result.Ok? <==> img.sectionsInitialized && img.ntHeaders.Some?
                              && Editor.DeleteSectionRebased(img.buffer, img.ntHeaders.value, name).Ok?
    ensures s.result.Ok? ==>
      var d := Editor.DeleteSectionRebased(img.buffer, img.ntHeaders.value, name).value;
      && s.result.value == d.removed
      && s.image == img.(buffer := d.image, sections := d.remaining)
  {
    if !img.sectionsInitialized || img.ntHeaders.None? then Step(img, Err(NotFound))
    else match Editor.DeleteSectionRebased(img.buffer, img.ntHeaders.value, name)
      case Err(e) => Step(img, Err(e))
      case Ok(d) => Step(img.(buffer := d.image, sections := d.remaining), Ok(d.removed))
  }

  /** `ClearDebugDirectory`: refused before the NT headers are located;
      otherwise the debug payload, the debug records and the debug data
      directory entry are cleared. Nothing changes on failure. */
  function ClearDebugDirectory(img: Image): (s: Step<bool>)
    ensures img.ntHeaders.None? ==> s == Step(img, Err(HeadersNotLocated))
    ensures s.result.Ok? <==> img.ntHeaders.Some? && Debug.ClearDebug(img.buffer, img.ntHeaders.value).Ok?
    ensures img.ntHeaders.Some? && Debug.ClearDebug(img.buffer, img.ntHeaders.value).Err? ==>
              s.result == Err(Debug.ClearDebug(img.buffer, img.ntHeaders.value).error)
    ensures s.result.Err? ==> s.image == img
    ensures s.result.Ok? ==> && s.result.value
                             && s.image == img.(buffer := Debug.ClearDebug(img.buffer, img.ntHeaders.value).value)
  {
    if img.ntHeaders.None? then Step(img, Err(HeadersNotLocated))
    else match Debug.ClearDebug(img.buffer, img.ntHeaders.value)
      case Err(e) => Step(img, Err(e))
      case Ok(cleared) => Step(img.(buffer := cleared), Ok(true))
  }

  /** `ReadBuffer`: the scalar of `width` bytes at `at` (relative to the
      buffer's base). */
  function ReadBuffer(img: Image, at: int, width: nat): (s: Step<nat>)
    ensures s.image == img
    ensures s.result.Ok? <==> Access.InBuffer(|img.buffer|, at, width)
    ensures s.result.Ok? ==> s.result.value < Pow256(width) && EncodeLE(s.result.value, width) == img.buffer[at .. at + width]
    ensures s.result.Err? ==> s.result.error == OutOfBounds
  {
    Step(img, Access.ReadBuffer(img.buffer, at, width))
  }

  /** `WriteBuffer`: stores `v` as a scalar of `width` bytes at `at`. */
  function WriteBuffer(img: Image, at: int, width: nat, v: nat): (s: Step<()>)
    requires v < Pow256(width)
    ensures s.result.Ok? <==> Access.InBuffer(|img.buffer|, at, width)
    ensures s.result.Err? ==> s.image == img
    ensures s.result.Ok? ==> && s.image == img.(buffer := s.image.buffer)
                             && |s.image.buffer| == |img.buffer|
                             && s.image.buffer[at .. at + width] == EncodeLE(v, width)
                             && forall i {:trigger s.image.buffer[i]} :: 0 <= i < |img.buffer| && !(at <= i < at + width) ==>
                                  s.image.buffer[i] == img.buffer[i]
    ensures s.result.Err? ==> s.result.error == OutOfBounds
  {
    match Access.WriteBuffer(img.buffer, at, width, v)
    case Err(e) => Step(img, Err(e))
    case Ok(written) => Step(img.(buffer := written), Ok(()))
  }

  /** The bytes `[at, at + width)` and `[lo, lo + n)` do not overlap. */
  predicate Apart(at: int, width: nat, lo: nat, n: nat)
  {
    at + width <= lo || lo + n <= at
  }

  /** A write that misses NumberOfSections, SizeOfOptionalHeader and the
      section table keeps the list equal to the enumeration of the buffer. */
  lemma WriteOutsideTableKeepsConsistency(img: Image, at: int, width: nat, v: nat)
    requires v < Pow256(width)
    requires img.Consistent()
    requires WriteBuffer(img, at, width, v).result.Ok?
    requires img.sectionsInitialized ==>
      var nt := img.ntHeaders.value;
      && Apart(at, width, nt + NumberOfSectionsOffset, 2)
      && Apart(at, width, nt + SizeOfOptionalHeaderOffset, 2)
      && Apart(at, width, TableStart(img.buffer, nt), SectionSize * |img.sections|)
    ensures WriteBuffer(img, at, width, v).image.Consistent()
    ensures WriteBuffer(img, at, width, v).image.sections == img.sections
  {
    if img.sectionsInitialized {
      WriteOutsideTableParses(img.buffer, WriteBuffer(img, at, width, v).image.buffer, img.ntHeaders.value, at, width);
    }
  }

  /** Two buffers that differ only inside `[at, at + width)`, a range apart
      from the fields and the table enumeration reads, enumerate alike. */
  lemma WriteOutsideTableParses(a: seq<byte>, b: seq<byte>, nt: nat, at: int, width: nat)
    requires |a| == |b| && LocateTable(a, nt).Ok?
    requires forall i {:trigger b[i]} :: 0 <= i < |a| && !(at <= i < at + width) ==> b[i] == a[i]
    requires Apart(at, width, nt + NumberOfSectionsOffset, 2)
    requires Apart(at, width, nt + SizeOfOptionalHeaderOffset, 2)
    requires Apart(at, width, TableStart(a, nt), SectionSize * SectionCount(a, nt))
    ensures ParseSections(b, nt) == ParseSections(a, nt)
  {
    var layout := LocateTable(a, nt).value;
    SliceAgree(a, b, nt + NumberOfSectionsOffset, nt + NumberOfSectionsOffset + 2);
    SliceAgree(a, b, nt + SizeOfOptionalHeaderOffset, nt + SizeOfOptionalHeaderOffset + 2);
    SliceAgree(a, b, layout.start, layout.End());
    SameTableParses(a, b, nt);
  }

  /** Without `allowMultipleInit`, the second enumeration is refused and
      leaves the object as the first one left it. */
  lemma FindSectionsTwiceRefused(img: Image, allowMultipleInit: bool)
    requires FindSections(img, allowMultipleInit).result.Ok?
    ensures var once := FindSections(img, allowMultipleInit).image;
      FindSections(once, false) == Step(once, Err(DuplicateInit))
  {
  }

  /** Re-enumerating with `allowMultipleInit` yields the same list, not a
      longer one. */
  lemma FindSectionsAgain(img: Image, allowMultipleInit: bool)
    requires FindSections(img, allowMultipleInit).result.Ok?
    ensures var once := FindSections(img, allowMultipleInit).image;
      FindSections(once, true) == Step(once, Ok(once.sections))
  {
  }

  /** Deleting keeps the list equal to the enumeration of the new buffer. */
  lemma DeletePreservesConsistency(img: Image, name: seq<byte>)
    requires img.Consistent()
    requires DeleteSection(img, name).result.Ok?
    ensures DeleteSection(img, name).image.Consistent()
    ensures |DeleteSection(img, name).image.sections| == |img.sections| - 1
  {
    var nt := img.ntHeaders.value;
    var d := Editor.DeleteSectionRebased(img.buffer, nt, name).value;
    Editor.DeleteShrinksTable(img.buffer, nt, name, true, d);
  }

  /** A name no listed descriptor carries is refused and nothing changes. */
  lemma DeleteUnknownNameUnchanged(img: Image, name: seq<byte>)
    requires img.Consistent()
    requires forall j :: 0 <= j < |img.sections| ==> !Matches(img.sections[j], name)
    ensures DeleteSection(img, name) == Step(img, Err(NotFound))
  {
    if img.sectionsInitialized {
      Editor.DeleteUnknownName(img.buffer, img.ntHeaders.value, name, true, img.sections);
    }
  }

  /** After deleting the only descriptor carrying a name, that name is no
      longer found. */
  lemma DeleteThenGetMissing(img: Image, name: seq<byte>)
    requires img.Consistent()
    requires DeleteSection(img, name).result.Ok?
    requires forall i, j :: 0 <= i < j < |img.sections| && Matches(img.sections[i], name) ==> !Matches(img.sections[j], name)
    ensures GetSection(DeleteSection(img, name).image, name).result == Err(NotFound)
  {
    var nt := img.ntHeaders.value;
    var table := img.sections;
    var layout := LocateTable(img.buffer, nt).value;
    var d := Editor.DeleteSectionRebased(img.buffer, nt, name).value;
    Editor.DeleteParts(img.buffer, nt, name, true, d, table, layout);
    assert forall j :: 0 <= j < |table| && j != d.index ==> !Matches(table[j], name);
    SurvivorsLackName(table, d.index, layout.End(), name);
  }

  /** When descriptor `k` is the only one carrying `name`, no survivor of its
      deletion carries it. */
  lemma SurvivorsLackName(table: seq<SectionHeader>, k: nat, tableEnd: nat, name: seq<byte>)
    requires k < |table|
    requires forall j :: 0 <= j < |table| ==> table[j].Valid()
    requires forall j :: 0 <= j < |table| && j != k ==> !Matches(table[j], name)
    ensures forall i :: 0 <= i < |table| - 1 ==> !Matches(Editor.Remaining(table, k, tableEnd, true)[i], name)
  {
    forall i | 0 <= i < |table| - 1
      ensures !Matches(Editor.Remaining(table, k, tableEnd, true)[i], name)
    {
      Editor.RemainingFields(table, k, tableEnd, true, i);
      assert !Matches(table[Editor.Survivor(i, k)], name);
    }
  }

  /** Clearing the debug directory twice is clearing it once. */
  lemma ClearDebugDirectoryIdempotent(img: Image)
    requires ClearDebugDirectory(img).result.Ok?
    ensures var once := ClearDebugDirectory(img).image;
      ClearDebugDirectory(once) == Step(once, Ok(true))
  {
    Debug.ClearDebugIdempotent(img.buffer, img.ntHeaders.value);
  }

  /** Clearing keeps the list consistent with the buffer when the debug
      data directory entry lies before the section table. */
  lemma ClearPreservesConsistency(img: Image)
    requires img.Consistent()
    requires ClearDebugDirectory(img).result.Ok?
    requires img.sectionsInitialized ==>
      Debug.DebugEntryOffset(img.buffer, img.ntHeaders.value).value + Debug.DataDirectorySize
        <= TableStart(img.buffer, img.ntHeaders.value)
    ensures ClearDebugDirectory(img).image.Consistent()
  {
    if img.sectionsInitialized {
      Debug.ClearKeepsSections(img.buffer, img.ntHeaders.value);
    }
  }

  /** The source's `FindSections` as written: `bInitializedSections` is
      read but never set, and each enumeration appends to the list. An
      invalid descriptor stops the enumeration after the valid ones before
      it were appended. */
  function FindSectionsAsWritten(list: seq<SectionHeader>, initialized: bool, allowMultipleInit: bool,
                                 buf: seq<byte>, nt: nat): (r: (seq<SectionHeader>, Result<bool>))
    ensures initialized && !allowMultipleInit ==> r == (list, Err(DuplicateInit))
    ensures !(initialized && !allowMultipleInit) && ParseSections(buf, nt).Ok? ==>
      r == (list + ParseSections(buf, nt).value, Ok(true))
    ensures !(initialized && !allowMultipleInit) && ParseSections(buf, nt).Err? ==>
      r.1 == Err(ParseSections(buf, nt).error)
    ensures !(initialized && !allowMultipleInit) && LocateTable(buf, nt).Ok? && ParseSections(buf, nt).Err? ==>
      r.0 == list + DecodeTable(buf, LocateTable(buf, nt).value)[..ParseSections(buf, nt).error.fault.index]
    ensures LocateTable(buf, nt).Err? ==> r.0 == list
  {
    if initialized && !allowMultipleInit then (list, Err(DuplicateInit))
    else match ParseSections(buf, nt)
      case Ok(table) => (list + table, Ok(true))
      case Err(e) =>
        if LocateTable(buf, nt).Ok? && e.Format? && e.fault.InvalidSection?
        then (list + DecodeTable(buf, LocateTable(buf, nt).value)[..e.fault.index], Err(e))
        else (list, Err(e))
  }

  /** Since the flag is never set, a second call without
      `allowMultipleInit` is not refused: it succeeds and lists every
      descriptor twice, so a name then has two entries. */
  lemma FindSectionsAsWrittenRepeats(buf: seq<byte>, nt: nat)
    requires ParseSections(buf, nt).Ok? && |ParseSections(buf, nt).value| > 0
    ensures var table := ParseSections(buf, nt).value;
      var first := FindSectionsAsWritten([], false, false, buf, nt);
      var second := FindSectionsAsWritten(first.0, false, false, buf, nt);
      && second.1 == Ok(true)
      && second.0 == table + table
      && second.0[0] == second.0[|table|]
  {
  }

  /** The corrected enumeration refuses the same second call. */
  lemma FindSectionsRefusesRepeat(img: Image)
    requires img.Consistent() && img.ntHeaders.Some? && !img.sectionsInitialized
    requires ParseSections(img.buffer, img.ntHeaders.value).Ok?
    ensures var first := FindSections(img, false);
      && first.result.Ok?
      && FindSections(first.image, false).result == Err(DuplicateInit)
      && first.image.sections == ParseSections(img.buffer, img.ntHeaders.value).value
  {
  }
}

=== FILE: bytes.dfy ===
/** Byte sequences, little-endian unsigned fields, and the three range edits
    the image editor is built from: overwrite, zero-fill and excise. */
module Bytes {

  /** One byte of the image buffer. */
  type byte = b: int | 0 <= b < 256

  /** Number of distinct values of an unsigned integer `width` bytes wide. */
  function Pow256(width: nat): (r: nat)
    ensures r >= 1
  {
    if width == 0 then 1 else 256 * Pow256(width - 1)
  }

  /** Value ranges of the WORD and DWORD fields of the PE headers. */
  const U16: nat := 0x1_0000
  const U32: nat := 0x1_0000_0000

  /** The value a 32-bit unsigned field holds after C++ stores `x` in it
      (arithmetic modulo 2^32). */
  function Dword(x: int): (r: nat)
    ensures r < U32
    ensures 0 <= x < U32 ==> r == x
    ensures -(U32 as int) <= x < 0 ==> r == x + U32
  {
    x % U32
  }

  /** Adding back what a DWORD subtraction took away, modulo 2^32, restores
      the original field. */
  lemma DwordUndo(p: nat, a: nat)
    requires p < U32
    ensures (Dword(p - a) + a) % U32 == p
  {
    var q := (p - a) / U32;
    assert p - a == q * U32 + Dword(p - a);
    assert Dword(p - a) + a == p + (-q) * U32;
  }

  lemma Pow256Widths()
    ensures Pow256(2) == U16
    ensures Pow256(4) == U32
  {
    assert Pow256(1) == 0x100;
    assert Pow256(3) == 0x100_0000;
  }

  /** The unsigned value of `s`, least significant byte first. */
  function DecodeLE(s: seq<byte>): (v: nat)
    ensures v < Pow256(|s|)
  {
    if |s| == 0 then 0 else s[0] + 256 * DecodeLE(s[1..])
  }

  /** The `width` bytes that store `v`, least significant byte first. */
  function EncodeLE(v: nat, width: nat): (s: seq<byte>)
    requires v < Pow256(width)
    ensures |s| == width
  {
    if width == 0 then [] else [v % 256] + EncodeLE(v / 256, width - 1)
  }

  lemma {:induction false} DecodeEncode(v: nat, width: nat)
    requires v < Pow256(width)
    ensures DecodeLE(EncodeLE(v, width)) == v
  {
    if width > 0 {
      var s := EncodeLE(v, width);
      assert s[1..] == EncodeLE(v / 256, width - 1);
      DecodeEncode(v / 256, width - 1);
    }
  }

  lemma {:induction false} EncodeDecode(s: seq<byte>)
    ensures EncodeLE(DecodeLE(s), |s|) == s
  {
    if |s| > 0 {
      var v := DecodeLE(s);
      assert v % 256 == s[0] && v / 256 == DecodeLE(s[1..]);
      EncodeDecode(s[1..]);
    }
  }

  /** Zero is stored as all-zero bytes, whatever the width. */
  lemma {:induction false} EncodeZero(width: nat)
    ensures forall i :: 0 <= i < width ==> EncodeLE(0, width)[i] == 0
  {
    if width > 0 {
      EncodeZero(width - 1);
    }
  }

  /** `n` zero bytes. */
  function Zeros(n: nat): (z: seq<byte>)
    ensures |z| == n
    ensures forall i :: 0 <= i < n ==> z[i] == 0
  {
    seq(n, _ => 0)
  }

  /** `s` with the bytes at `[off, off + |t|)` replaced by `t`. */
  function Overwrite(s: seq<byte>, off: nat, t: seq<byte>): (r: seq<byte>)
    requires off + |t| <= |s|
    ensures |r| == |s|
    ensures forall i {:trigger r[i]} :: 0 <= i < |s| ==> r[i] == if off <= i < off + |t| then t[i - off] else s[i]
  {
    s[..off] + t + s[off + |t|..]
  }

  /** `s` with the `n` bytes at `off` cleared, as `memset(p + off, 0, n)` does. */
  function ZeroFill(s: seq<byte>, off: nat, n: nat): (r: seq<byte>)
    requires off + n <= |s|
    ensures |r| == |s|
    ensures forall i {:trigger r[i]} :: 0 <= i < |s| ==> r[i] == if off <= i < off + n then 0 else s[i]
  {
    Overwrite(s, off, Zeros(n))
  }

  /** `s` with the bytes at `[lo, hi)` removed, as `vector::erase(begin + lo, begin + hi)` does. */
  function Excise(s: seq<byte>, lo: nat, hi: nat): (r: seq<byte>)
    requires lo <= hi <= |s|
    ensures |r| == |s| - (hi - lo)
    ensures forall i {:trigger r[i]} :: 0 <= i < lo ==> r[i] == s[i]
    ensures forall i {:trigger r[i]} :: lo <= i < |r| ==> r[i] == s[i + (hi - lo)]
  {
    s[..lo] + s[hi..]
  }

  /** The unsigned little-endian field of `width` bytes at `off`. */
  function ReadLE(s: seq<byte>, off: nat, width: nat): (v: nat)
    requires off + width <= |s|
    ensures v < Pow256(width)
  {
    DecodeLE(s[off..off + width])
  }

  /** `s` with the little-endian field of `width` bytes at `off` set to `v`. */
  function WriteLE(s: seq<byte>, off: nat, width: nat, v: nat): (r: seq<byte>)
    requires off + width <= |s|
    requires v < Pow256(width)
    ensures |r| == |s|
    ensures forall i {:trigger r[i]} :: 0 <= i < |s| && !(off <= i < off + width) ==> r[i] == s[i]
    ensures ReadLE(r, off, width) == v
  {
    var r := Overwrite(s, off, EncodeLE(v, width));
    assert r[off..off + width] == EncodeLE(v, width);
    DecodeEncode(v, width);
    r
  }

  /** Two buffers that agree on `[lo, hi)` have equal slices there. */
  lemma SliceAgree(s: seq<byte>, t: seq<byte>, lo: nat, hi: nat)
    requires lo <= hi <= |s| && hi <= |t|
    requires forall i :: lo <= i < hi ==> s[i] == t[i]
    ensures s[lo..hi] == t[lo..hi]
  {
  }

  /** Two ranges of equal length whose bytes agree one by one are equal slices. */
  lemma SliceShift(s: seq<byte>, a: nat, t: seq<byte>, b: nat, n: nat)
    requires a + n <= |s| && b + n <= |t|
    requires forall y :: a <= y < a + n ==> s[y] == t[b + (y - a)]
    ensures s[a .. a + n] == t[b .. b + n]
  {
    var u := s[a .. a + n];
    var v := t[b .. b + n];
    forall j | 0 <= j < n
      ensures u[j] == v[j]
    {
      assert u[j] == s[a + j];
    }
    assert u == v;
  }

  /** A field reads the same from two buffers that agree on its bytes. */
  lemma ReadAgree(s: seq<byte>, t: seq<byte>, off: nat, width: nat)
    requires off + width <= |s| && off + width <= |t|
    requires forall i :: off <= i < off + width ==> s[i] == t[i]
    ensures ReadLE(s, off, width) == ReadLE(t, off, width)
  {
    SliceAgree(s, t, off, off + width);
  }

  /** Removing two disjoint ranges: taking out the higher range `[c, d)` first
      and then `[a, b)` is the same as taking out `[a, b)` first and then the
      higher range at its offsets shifted down by `b - a`. */
  lemma ExciseCommute(s: seq<byte>, a: nat, b: nat, c: nat, d: nat)
    requires a <= b <= c <= d <= |s|
    ensures Excise(Excise(s, c, d), a, b) == Excise(Excise(s, a, b), c - (b - a), d - (b - a))
  {
    var x := Excise(Excise(s, c, d), a, b);
    var y := Excise(Excise(s, a, b), c - (b - a), d - (b - a));
    assert |x| == |y|;
    forall i | 0 <= i < |x|
      ensures x[i] == y[i]
    {
    }
  }
}

=== FILE: debug.dfy ===
/** Stripping the debug directory: the debug entry of the optional header's
    data directories is read, its RVA is translated to a file offset through
    the section table, and the debug payload, the IMAGE_DEBUG_DIRECTORY
    records and the data-directory entry itself are zeroed in place. Layouts
    as in the Microsoft "PE Format" document, sections "Optional Header Data
    Directories (Image Only)" and "Debug Directory (Image Only)". */
module Debug {
  import opened Bytes
  import opened Results
  import opened Headers
  import opened Sections

  /** OptionalHeader.Magic of a PE32 and of a PE32+ image. */
  const Pe32Magic: nat := 0x10B
  const Pe32PlusMagic: nat := 0x20B
  /** IMAGE_DIRECTORY_ENTRY_DEBUG, and the size of one IMAGE_DATA_DIRECTORY
      (VirtualAddress, then Size). */
  const DebugDirectoryIndex: nat := 6
  const DataDirectorySize: nat := 8
  /** Size of IMAGE_DEBUG_DIRECTORY, and the offsets of its SizeOfData and
      PointerToRawData fields. */
  const DebugRecordSize: nat := 28
  const SizeOfDataOffset: nat := 16
  const PointerToRawDataOffset: nat := 24

  /** Where the data directories start inside the optional header. */
  function DataDirectoriesOffset(magic: nat): (r: Result<nat>)
    ensures r.Ok? <==> magic == Pe32Magic || magic == Pe32PlusMagic
    ensures magic == Pe32Magic ==> r == Ok(96)
    ensures magic == Pe32PlusMagic ==> r == Ok(112)
    ensures r.Err? ==> r.error == Format(UnknownMagic(magic))
  {
    if magic == Pe32Magic then Ok(96)
    else if magic == Pe32PlusMagic then Ok(112)
    else Err(Format(UnknownMagic(magic)))
  }

  /** OptionalHeader.Magic of the NT headers at `nt`. */
  function Magic(buf: seq<byte>, nt: nat): nat
    requires nt + OptionalHeaderOffset + 2 <= |buf|
  {
    ReadLE(buf, nt + OptionalHeaderOffset, 2)
  }

  /** File offset of the debug entry of the data directories. */
  function DebugEntryOffset(buf: seq<byte>, nt: nat): (r: Result<nat>)
    ensures r.Ok? ==> && nt + OptionalHeaderOffset + 2 <= |buf|
                      && DataDirectoriesOffset(Magic(buf, nt)).Ok?
                      && r.value == nt + OptionalHeaderOffset + DataDirectoriesOffset(Magic(buf, nt)).value
                                    + DebugDirectoryIndex * DataDirectorySize
                      && r.value + DataDirectorySize <= |buf|
    ensures nt + OptionalHeaderOffset + 2 <= |buf| && DataDirectoriesOffset(Magic(buf, nt)).Err? ==>
              r == Err(Format(UnknownMagic(Magic(buf, nt))))
    ensures r.Ok? <==> && nt + OptionalHeaderOffset + 2 <= |buf|
                       && DataDirectoriesOffset(Magic(buf, nt)).Ok?
                       && nt + OptionalHeaderOffset + DataDirectoriesOffset(Magic(buf, nt)).value
                            + DebugDirectoryIndex * DataDirectorySize + DataDirectorySize <= |buf|
    ensures r.Err? ==> r.error == Format(Truncated) || (r.error.Format? && r.error.fault.UnknownMagic?)
    ensures nt + OptionalHeaderOffset + 2 > |buf| ==> r == Err(Format(Truncated))
    ensures nt + OptionalHeaderOffset + 2 <= |buf| && DataDirectoriesOffset(Magic(buf, nt)).Ok? && r.Err? ==>
              r == Err(Format(Truncated))
  {
    if nt + OptionalHeaderOffset + 2 > |buf| then Err(Format(Truncated))
    else
      var dirs :- DataDirectoriesOffset(Magic(buf, nt));
      var entry := nt + OptionalHeaderOffset + dirs + DebugDirectoryIndex * DataDirectorySize;
      if entry + DataDirectorySize > |buf| then Err(Format(Truncated)) else Ok(entry)
  }

  /** The virtual range `[VirtualAddress, VirtualAddress + VirtualSize)` of `h` holds `rva`. */
  predicate Contains(h: SectionHeader, rva: nat)
  {
    h.virtualAddress <= rva < h.virtualAddress + h.virtualSize
  }

  /** The first section whose virtual range holds `rva`. */
  function FindContaining(table: seq<SectionHeader>, rva: nat): (r: Option<nat>)
    ensures r.Some? ==> && r.value < |table|
                        && Contains(table[r.value], rva)
                        && forall j :: 0 <= j < r.value ==> !Contains(table[j], rva)
    ensures r.None? <==> forall j :: 0 <= j < |table| ==> !Contains(table[j], rva)
  {
    if |table| == 0 then None
    else if Contains(table[0], rva) then Some(0)
    else match FindContaining(table[1..], rva)
      case None => None
      case Some(k) => Some(k + 1)
  }

  /** The file offset of `rva`: its distance into the first section that
      holds it, added to that section's PointerToRawData. */
  function RvaToOffset(table: seq<SectionHeader>, rva: nat): (r: Result<nat>)
    ensures r.Ok? <==> exists j :: 0 <= j < |table| && Contains(table[j], rva)
    ensures r.Ok? ==> exists j :: && 0 <= j < |table| && Contains(table[j], rva)
                                  && (forall i :: 0 <= i < j ==> !Contains(table[i], rva))
                                  && r.value == table[j].pointerToRawData + (rva - table[j].virtualAddress)
    ensures r.Err? ==> r.error == Format(UnmappableRva(rva))
  {
    match FindContaining(table, rva)
    case None => Err(Format(UnmappableRva(rva)))
    case Some(j) => Ok(table[j].pointerToRawData + (rva - table[j].virtualAddress))
  }

  /** Sections whose virtual ranges do not overlap. */
  predicate VirtuallyDisjoint(table: seq<SectionHeader>)
  {
    forall i, j :: 0 <= i < j < |table| ==>
      table[i].virtualAddress + table[i].virtualSize <= table[j].virtualAddress
      || table[j].virtualAddress + table[j].virtualSize <= table[i].virtualAddress
  }

  /** In an image whose sections do not overlap in memory, every address
      inside a section maps to the same distance into that section's raw data. */
  lemma RvaInSection(table: seq<SectionHeader>, j: nat, d: nat)
    requires VirtuallyDisjoint(table)
    requires j < |table| && d < table[j].virtualSize
    ensures RvaToOffset(table, table[j].virtualAddress + d) == Ok(table[j].pointerToRawData + d)
  {
    var rva := table[j].virtualAddress + d;
    var k := FindContaining(table, rva);
    assert Contains(table[j], rva);
    assert k.Some?;
  }

  /** Where the clearing writes: the data-directory entry at `entry`, the
      `dirSize` bytes of debug records at `dirOffset`, and the `rawSize`
      bytes of payload at `rawOffset`. `headersEnd` is the end of the
      headers and the section table, which the clearing must not reach. */
  datatype DebugSite = DebugSite(entry: nat, dirOffset: nat, dirSize: nat, rawOffset: nat, rawSize: nat,
                                 headersEnd: nat)

  /** A range that is empty, or lies after the headers and inside the buffer. */
  predicate Clearable(size: nat, headersEnd: nat, off: nat, n: nat)
  {
    n == 0 || (headersEnd <= off && off + n <= size)
  }

  /** A site the clearing can write. */
  predicate SiteFits(size: nat, s: DebugSite)
  {
    && s.entry + DataDirectorySize <= s.headersEnd <= size
    && Clearable(size, s.headersEnd, s.dirOffset, s.dirSize)
    && Clearable(size, s.headersEnd, s.rawOffset, s.rawSize)
  }

  /** The VirtualAddress and the Size of the debug entry at `entry`. */
  function DirectoryVA(buf: seq<byte>, entry: nat): nat
    requires entry + DataDirectorySize <= |buf|
  {
    ReadLE(buf, entry, 4)
  }

  function DirectorySize(buf: seq<byte>, entry: nat): nat
    requires entry + DataDirectorySize <= |buf|
  {
    ReadLE(buf, entry + 4, 4)
  }

  /** `Rva::RvaToOffset` on the image whose NT headers are at `nt`, through
      the section table those headers announce. */
  function MapRva(buf: seq<byte>, nt: nat, rva: nat): (r: Result<nat>)
    ensures r.Ok? ==> LocateTable(buf, nt).Ok?
    ensures LocateTable(buf, nt).Ok? ==> r == RvaToOffset(DecodeTable(buf, LocateTable(buf, nt).value), rva)
    ensures LocateTable(buf, nt).Err? ==> r == Err(LocateTable(buf, nt).error)
  {
    var layout :- LocateTable(buf, nt);
    RvaToOffset(DecodeTable(buf, layout), rva)
  }

  /** The site described by the debug entry at `entry` and the first debug
      record at `dirOffset`: SizeOfData and PointerToRawData of that record. */
  function SiteAt(buf: seq<byte>, entry: nat, dirOffset: nat, headersEnd: nat): DebugSite
    requires entry + DataDirectorySize <= |buf|
    requires dirOffset + DebugRecordSize <= |buf|
  {
    DebugSite(entry, dirOffset, DirectorySize(buf, entry),
              ReadLE(buf, dirOffset + PointerToRawDataOffset, 4), ReadLE(buf, dirOffset + SizeOfDataOffset, 4),
              headersEnd)
  }

  /** The end of the headers and the section table: the later of the
      table's end and the debug entry's end. */
  function HeadersEnd(tableEnd: nat, entry: nat): (e: nat)
    ensures e >= tableEnd && e >= entry + DataDirectorySize
    ensures e == tableEnd || e == entry + DataDirectorySize
  {
    if tableEnd < entry + DataDirectorySize then entry + DataDirectorySize else tableEnd
  }

  /** What `ClearDebugDirectory` reads: nothing when the debug entry's Size
      or VirtualAddress is zero; otherwise the mapped debug records and the
      payload the first record describes. */
  function LocateDebug(buf: seq<byte>, nt: nat): (r: Result<Option<DebugSite>>)
    ensures r.Ok? ==> DebugEntryOffset(buf, nt).Ok?
    ensures DebugEntryOffset(buf, nt).Err? ==> r == Err(DebugEntryOffset(buf, nt).error)
    ensures DebugEntryOffset(buf, nt).Ok? ==>
      var entry := DebugEntryOffset(buf, nt).value;
      (DirectoryVA(buf, entry) == 0 || DirectorySize(buf, entry) == 0 <==> r == Ok(None))
    ensures r.Ok? && r.value.Some? ==>
      var s := r.value.value;
      && SiteFits(|buf|, s)
      && s.entry == DebugEntryOffset(buf, nt).value
      && MapRva(buf, nt, DirectoryVA(buf, s.entry)) == Ok(s.dirOffset)
      && s.dirOffset + DebugRecordSize <= |buf|
      && s == SiteAt(buf, s.entry, s.dirOffset, s.headersEnd)
      && LocateTable(buf, nt).Ok?
      && LocateTable(buf, nt).value.End() <= s.headersEnd
    ensures DebugEntryOffset(buf, nt).Ok? ==>
      var entry := DebugEntryOffset(buf, nt).value;
      DirectoryVA(buf, entry) != 0 && DirectorySize(buf, entry) != 0 ==>
        match MapRva(buf, nt, DirectoryVA(buf, entry))
        case Err(e) => r == Err(e)
        case Ok(dir) =>
          if && dir + DebugRecordSize <= |buf|
             && SiteFits(|buf|, SiteAt(buf, entry, dir, HeadersEnd(LocateTable(buf, nt).value.End(), entry)))
          then r == Ok(Some(SiteAt(buf, entry, dir, HeadersEnd(LocateTable(buf, nt).value.End(), entry))))
          else r == Err(Format(RangeOutOfBounds))
  {
    var entry :- DebugEntryOffset(buf, nt);
    if DirectoryVA(buf, entry) == 0 || DirectorySize(buf, entry) == 0 then Ok(None)
    else
      var layout :- LocateTable(buf, nt);
      var dir :- MapRva(buf, nt, DirectoryVA(buf, entry));
      if dir + DebugRecordSize > |buf| then Err(Format(RangeOutOfBounds))
      else
        var s := SiteAt(buf, entry, dir, HeadersEnd(layout.End(), entry));
        if SiteFits(|buf|, s) then Ok(Some(s)) else Err(Format(RangeOutOfBounds))
  }

  /** Byte `i` is one the clearing of `s` zeroes. */
  predicate Cleared(s: DebugSite, i: int)
  {
    || s.rawOffset <= i < s.rawOffset + s.rawSize
    || s.dirOffset <= i < s.dirOffset + s.dirSize
    || s.entry <= i < s.entry + DataDirectorySize
  }

  /** The three `memset`s and the two field stores of `ClearDebugDirectory`:
      payload, debug records, then VirtualAddress and Size of the entry. */
  function ClearSite(buf: seq<byte>, s: DebugSite): (r: seq<byte>)
    requires SiteFits(|buf|, s)
    ensures |r| == |buf|
    ensures forall i {:trigger r[i]} :: 0 <= i < |buf| ==> r[i] == if Cleared(s, i) then 0 else buf[i]
  {
    var noPayload := if s.rawSize == 0 then buf else ZeroFill(buf, s.rawOffset, s.rawSize);
    var noRecords := if s.dirSize == 0 then noPayload else ZeroFill(noPayload, s.dirOffset, s.dirSize);
    ZeroFill(noRecords, s.entry, DataDirectorySize)
  }

  /** `ClearDebugDirectory` on the image whose NT headers are at `nt`. */
  function ClearDebug(buf: seq<byte>, nt: nat): (r: Result<seq<byte>>)
    ensures r.Ok? <==> LocateDebug(buf, nt).Ok?
    ensures r.Err? ==> r.error == LocateDebug(buf, nt).error
    ensures LocateDebug(buf, nt) == Ok(None) ==> r == Ok(buf)
    ensures r.Ok? ==> |r.value| == |buf|
    ensures r.Ok? && LocateDebug(buf, nt).value.Some? ==>
      var s := LocateDebug(buf, nt).value.value;
      forall i :: 0 <= i < |buf| ==> r.value[i] == if Cleared(s, i) then 0 else buf[i]
  {
    var site :- LocateDebug(buf, nt);
    match site
    case None => Ok(buf)
    case Some(s) => Ok(ClearSite(buf, s))
  }

  /** The clearing leaves the headers and the section table alone: byte `i`
      before `headersEnd`, other than the debug entry, is kept. */
  lemma ClearSiteKeepsHeaders(buf: seq<byte>, s: DebugSite, lo: nat, hi: nat)
    requires SiteFits(|buf|, s)
    requires lo <= hi <= s.headersEnd
    requires hi <= s.entry || s.entry + DataDirectorySize <= lo
    ensures ClearSite(buf, s)[lo..hi] == buf[lo..hi]
  {
    var r := ClearSite(buf, s);
    forall i | lo <= i < hi
      ensures r[i] == buf[i]
    {
      assert !Cleared(s, i);
    }
    SliceAgree(r, buf, lo, hi);
  }

  /** A field whose bytes are all zero reads as zero. */
  lemma ZeroBytesReadZero(s: seq<byte>, off: nat, width: nat)
    requires off + width <= |s|
    requires forall i :: off <= i < off + width ==> s[i] == 0
    ensures ReadLE(s, off, width) == 0
  {
    EncodeZero(width);
    assert s[off..off + width] == EncodeLE(0, width);
    DecodeEncode(0, width);
  }

  /** The debug entry is found at the same place in two buffers of equal
      length that agree on the optional header's Magic. */
  lemma SameEntryOffset(a: seq<byte>, b: seq<byte>, nt: nat)
    requires |a| == |b|
    requires nt + OptionalHeaderOffset + 2 <= |a|
    requires a[nt + OptionalHeaderOffset .. nt + OptionalHeaderOffset + 2] == b[nt + OptionalHeaderOffset .. nt + OptionalHeaderOffset + 2]
    ensures DebugEntryOffset(a, nt) == DebugEntryOffset(b, nt)
  {
    assert Magic(a, nt) == Magic(b, nt);
  }

  /** Clearing a site zeroes the VirtualAddress and the Size of its debug entry. */
  lemma ClearSiteZeroesEntry(buf: seq<byte>, s: DebugSite)
    requires SiteFits(|buf|, s)
    ensures DirectoryVA(ClearSite(buf, s), s.entry) == 0
    ensures DirectorySize(ClearSite(buf, s), s.entry) == 0
  {
    var r := ClearSite(buf, s);
    forall i | s.entry <= i < s.entry + DataDirectorySize
      ensures r[i] == 0
    {
      assert Cleared(s, i);
    }
    ZeroBytesReadZero(r, s.entry, 4);
    ZeroBytesReadZero(r, s.entry + 4, 4);
  }

  /** Clearing a site whose entry lies after the optional header's Magic
      leaves the debug entry where it was. */
  lemma ClearSiteKeepsEntryOffset(buf: seq<byte>, s: DebugSite, nt: nat)
    requires SiteFits(|buf|, s)
    requires nt + OptionalHeaderOffset + 2 <= s.entry
    ensures DebugEntryOffset(ClearSite(buf, s), nt) == DebugEntryOffset(buf, nt)
  {
    var m := nt + OptionalHeaderOffset;
    ClearSiteKeepsHeaders(buf, s, m, m + 2);
    SameEntryOffset(ClearSite(buf, s), buf, nt);
  }

  /** After a clearing, the debug entry reads as empty. */
  lemma ClearedHasNoDebug(buf: seq<byte>, nt: nat)
    requires ClearDebug(buf, nt).Ok?
    ensures LocateDebug(ClearDebug(buf, nt).value, nt) == Ok(None)
  {
    var site := LocateDebug(buf, nt).value;
    if site.Some? {
      var s := site.value;
      ClearSiteKeepsEntryOffset(buf, s, nt);
      ClearSiteZeroesEntry(buf, s);
    }
  }

  /** Clearing twice is clearing once. */
  lemma ClearDebugIdempotent(buf: seq<byte>, nt: nat)
    requires ClearDebug(buf, nt).Ok?
    ensures ClearDebug(ClearDebug(buf, nt).value, nt) == ClearDebug(buf, nt)
  {
    ClearedHasNoDebug(buf, nt);
  }

  /** When the data directories lie before the section table, as the optional
      header places them, clearing leaves the enumeration unchanged. */
  lemma ClearKeepsSections(buf: seq<byte>, nt: nat)
    requires ClearDebug(buf, nt).Ok?
    requires LocateTable(buf, nt).Ok?
    requires DebugEntryOffset(buf, nt).value + DataDirectorySize <= TableStart(buf, nt)
    ensures ParseSections(ClearDebug(buf, nt).value, nt) == ParseSections(buf, nt)
  {
    var site := LocateDebug(buf, nt).value;
    if site.Some? {
      ClearSiteKeepsSections(buf, site.value, nt);
    }
  }

  lemma ClearSiteKeepsSections(buf: seq<byte>, s: DebugSite, nt: nat)
    requires SiteFits(|buf|, s)
    requires LocateTable(buf, nt).Ok?
    requires nt + OptionalHeaderOffset <= s.entry
    requires s.entry + DataDirectorySize <= TableStart(buf, nt)
    requires LocateTable(buf, nt).value.End() <= s.headersEnd
    ensures ParseSections(ClearSite(buf, s), nt) == ParseSections(buf, nt)
  {
    var layout := LocateTable(buf, nt).value;
    ClearSiteKeepsHeaders(buf, s, nt + NumberOfSectionsOffset, nt + NumberOfSectionsOffset + 2);
    ClearSiteKeepsHeaders(buf, s, nt + SizeOfOptionalHeaderOffset, nt + SizeOfOptionalHeaderOffset + 2);
    ClearSiteKeepsHeaders(buf, s, layout.start, layout.End());
    SameTableParses(buf, ClearSite(buf, s), nt);
  }
}

=== FILE: editor.dfy ===
/** Deleting a named section: the descriptor is removed from the table, the
    other descriptors' raw offsets and virtual sizes are fixed up, the
    section count is decremented, and both the 40-byte table slot and the
    section's raw bytes are cut out of the buffer. */
module Editor {
  import opened Bytes
  import opened Results
  import opened Headers
  import opened Sections

  function RemoveAt(table: seq<SectionHeader>, k: nat): (r: seq<SectionHeader>)
    requires k < |table|
    ensures |r| == |table| - 1
  {
    seq(|table| - 1, i requires 0 <= i < |table| - 1 => table[if i < k then i else i + 1])
  }

  /** The new PointerToRawData of a surviving descriptor whose old value is
      `p`, after `target` is deleted from a table ending at `tableEnd`.
      The source lowers every pointer above the deleted one by the deleted
      SizeOfRawData (DWORD arithmetic). With `rebase`, pointers at or after
      the table end are also lowered by the 0x28 bytes the table loses. */
  function FixRawPointer(p: nat, target: SectionHeader, tableEnd: nat, rebase: bool): (q: nat)
    ensures q < U32
  {
    var dropped := if p > target.pointerToRawData then target.sizeOfRawData else 0;
    var moved := if rebase && p >= tableEnd then SectionSize else 0;
    Dword(p - dropped - moved)
  }

  function FixRawPointers(table: seq<SectionHeader>, target: SectionHeader, tableEnd: nat, rebase: bool)
    : (r: seq<SectionHeader>)
    requires forall i :: 0 <= i < |table| ==> table[i].Valid()
    ensures |r| == |table|
    ensures forall i :: 0 <= i < |r| ==> r[i].Valid()
  {
    seq(|table|, i requires 0 <= i < |table| => WithPointer(table[i], FixRawPointer(table[i].pointerToRawData, target, tableEnd, rebase)))
  }

  function WithPointer(h: SectionHeader, p: nat): (r: SectionHeader)
    requires h.Valid() && p < U32
    ensures r.Valid() && r == h.(pointerToRawData := p)
  {
    h.(pointerToRawData := p)
  }

  function WithVirtualSize(h: SectionHeader, v: nat): (r: SectionHeader)
    requires h.Valid() && v < U32
    ensures r.Valid() && r == h.(virtualSize := v)
  {
    h.(virtualSize := v)
  }

  /** The source's virtual-size repair: for each adjacent pair whose earlier
      VirtualAddress is below the deleted one, the earlier descriptor's
      VirtualSize becomes the distance to the next VirtualAddress. */
  function CloseGaps(table: seq<SectionHeader>, deletedVA: nat): (r: seq<SectionHeader>)
    requires forall i :: 0 <= i < |table| ==> table[i].Valid()
    ensures |r| == |table|
    ensures forall i :: 0 <= i < |r| ==> r[i].Valid()
  {
    seq(|table|, i requires 0 <= i < |table| =>
      if i + 1 < |table| && table[i].virtualAddress < deletedVA
      then WithVirtualSize(table[i], Dword(table[i + 1].virtualAddress - table[i].virtualAddress))
      else table[i])
  }

  /** Erasing entry `k` splices the list around it: the entries before and
      after keep their order, and `table[k]` is the only entry lost. */
  lemma RemoveAtSplices(table: seq<SectionHeader>, k: nat)
    requires k < |table|
    ensures RemoveAt(table, k) == table[..k] + table[k + 1..]
    ensures multiset(RemoveAt(table, k)) + multiset{table[k]} == multiset(table)
  {
    var r := RemoveAt(table, k);
    assert r == table[..k] + table[k + 1..];
    assert table == table[..k] + [table[k]] + table[k + 1..];
  }

  /** The pointer fixup changes nothing but PointerToRawData. A pointer at or
      below the deleted one (and, with `rebase`, before the table end) is
      kept; any other one is lowered by an amount that, added back modulo
      2^32, restores the old pointer: the deleted SizeOfRawData when it lay
      above the deleted pointer, and 0x28 more with `rebase` past the table. */
  lemma FixRawPointersOnlyPointer(table: seq<SectionHeader>, target: SectionHeader, tableEnd: nat, rebase: bool, i: nat)
    requires forall j :: 0 <= j < |table| ==> table[j].Valid()
    requires i < |table|
    ensures var r := FixRawPointers(table, target, tableEnd, rebase)[i];
      var p := table[i].pointerToRawData;
      && r.(pointerToRawData := p) == table[i]
      && (p <= target.pointerToRawData && !(rebase && p >= tableEnd) ==> r == table[i])
      && (r.pointerToRawData
            + (if p > target.pointerToRawData then target.sizeOfRawData else 0)
            + (if rebase && p >= tableEnd then SectionSize else 0)) % U32 == p
  {
    var p := table[i].pointerToRawData;
    var dropped := if p > target.pointerToRawData then target.sizeOfRawData else 0;
    var moved := if rebase && p >= tableEnd then SectionSize else 0;
    DwordUndo(p, dropped + moved);
  }

  /** The virtual-size repair changes nothing but VirtualSize. Each repaired
      descriptor now ends, modulo 2^32, exactly where the next one begins;
      every other descriptor is kept. */
  lemma CloseGapsMeetsSuccessor(table: seq<SectionHeader>, deletedVA: nat, i: nat)
    requires forall j :: 0 <= j < |table| ==> table[j].Valid()
    requires i < |table|
    ensures var r := CloseGaps(table, deletedVA);
      && r[i].(virtualSize := table[i].virtualSize) == table[i]
      && (i + 1 < |table| && table[i].virtualAddress < deletedVA ==>
            (r[i].virtualAddress + r[i].virtualSize) % U32 == r[i + 1].virtualAddress)
      && (!(i + 1 < |table| && table[i].virtualAddress < deletedVA) ==> r[i] == table[i])
  {
    var r := CloseGaps(table, deletedVA);
    if i + 1 < |table| && table[i].virtualAddress < deletedVA {
      var next := table[i + 1].virtualAddress;
      var va := table[i].virtualAddress;
      assert r[i + 1].virtualAddress == next;
      DwordUndo(next, va);
      assert (r[i].virtualSize + va) % U32 == next;
    }
  }

  /** The table after deleting descriptor `k`. */
  function Remaining(table: seq<SectionHeader>, k: nat, tableEnd: nat, rebase: bool): (r: seq<SectionHeader>)
    requires k < |table|
    requires forall i :: 0 <= i < |table| ==> table[i].Valid()
    ensures |r| == |table| - 1
    ensures forall i :: 0 <= i < |r| ==> r[i].Valid()
  {
    CloseGaps(FixRawPointers(RemoveAt(table, k), table[k], tableEnd, rebase), table[k].virtualAddress)
  }

  /** Index in the old table of survivor `i` after deleting descriptor `k`. */
  function Survivor(i: nat, k: nat): nat
  {
    if i < k then i else i + 1
  }

  lemma RemainingFields(table: seq<SectionHeader>, k: nat, tableEnd: nat, rebase: bool, i: nat)
    requires k < |table|
    requires forall j :: 0 <= j < |table| ==> table[j].Valid()
    requires i < |table| - 1
    ensures var r := Remaining(table, k, tableEnd, rebase);
      var o := table[Survivor(i, k)];
      && r[i].name == o.name
      && r[i].virtualAddress == o.virtualAddress
      && r[i].sizeOfRawData == o.sizeOfRawData
      && r[i].trailer == o.trailer
      && r[i].pointerToRawData == FixRawPointer(o.pointerToRawData, table[k], tableEnd, rebase)
      && r[i].virtualSize ==
           if i + 1 < |r| && o.virtualAddress < table[k].virtualAddress
           then Dword(table[Survivor(i + 1, k)].virtualAddress - o.virtualAddress)
           else o.virtualSize
  {
    var removed := RemoveAt(table, k);
    var fixed := FixRawPointers(removed, table[k], tableEnd, rebase);
    assert removed[i] == table[Survivor(i, k)];
    assert fixed[i].virtualAddress == removed[i].virtualAddress;
    if i + 1 < |removed| {
      assert removed[i + 1] == table[Survivor(i + 1, k)];
      assert fixed[i + 1].virtualAddress == removed[i + 1].virtualAddress;
    }
  }

  /** The deleted section's raw data is empty, or lies after the table and
      inside a buffer of `size` bytes. */
  predicate RawDataPlaced(h: SectionHeader, tableEnd: nat, size: nat)
  {
    h.sizeOfRawData == 0 || (tableEnd <= h.pointerToRawData && h.pointerToRawData + h.sizeOfRawData <= size)
  }

  /** Where byte `i` past the new table end came from in the old buffer:
      the table lost 0x28 bytes, and the deleted raw data is skipped over. */
  function TailSource(i: nat, target: SectionHeader): nat
  {
    i + SectionSize
      + if target.sizeOfRawData > 0 && i + SectionSize >= target.pointerToRawData then target.sizeOfRawData else 0
  }

  /** `buf` without the raw data of `target`. */
  function CutRawData(buf: seq<byte>, target: SectionHeader): (r: seq<byte>)
    requires target.sizeOfRawData == 0 || target.pointerToRawData + target.sizeOfRawData <= |buf|
    ensures |r| == |buf| - target.sizeOfRawData
    ensures forall i :: 0 <= i < |r| ==>
      r[i] == buf[if target.sizeOfRawData > 0 && i >= target.pointerToRawData then i + target.sizeOfRawData else i]
  {
    if target.sizeOfRawData == 0 then buf
    else Excise(buf, target.pointerToRawData, target.pointerToRawData + target.sizeOfRawData)
  }

  /** A table placed after the file header at `nt` and inside `buf`; what
      `LocateTable` guarantees of the layout it returns. */
  predicate Fits(buf: seq<byte>, nt: nat, layout: TableLayout)
  {
    nt + OptionalHeaderOffset <= layout.start && layout.End() <= |buf| && layout.count < U16
  }

  /** `buf` without the raw data of `target` and without table slot `k`, with
      NumberOfSections decremented; the table area still holds the old records. */
  function CutAndRecount(buf: seq<byte>, nt: nat, layout: TableLayout, k: nat, target: SectionHeader): (r: seq<byte>)
    requires Fits(buf, nt, layout)
    requires k < layout.count
    requires RawDataPlaced(target, layout.End(), |buf|)
    ensures |r| == |buf| - SectionSize - target.sizeOfRawData
  {
    Pow256Widths();
    WriteLE(CutSlot(buf, layout, k, target), nt + NumberOfSectionsOffset, 2, layout.count - 1)
  }

  /** `buf` without the raw data of `target` and without table slot `k`. */
  function CutSlot(buf: seq<byte>, layout: TableLayout, k: nat, target: SectionHeader): (r: seq<byte>)
    requires layout.End() <= |buf|
    requires k < layout.count
    requires RawDataPlaced(target, layout.End(), |buf|)
    ensures |r| == |buf| - SectionSize - target.sizeOfRawData
  {
    SlotInside(k, layout.count);
    var slot := layout.start + SectionSize * k;
    Excise(CutRawData(buf, target), slot, slot + SectionSize)
  }

  /** Byte `i` past the new table end of `CutSlot` is the old byte `TailSource(i, target)`. */
  lemma CutSlotTailAt(buf: seq<byte>, layout: TableLayout, k: nat, target: SectionHeader, i: nat)
    requires layout.End() <= |buf|
    requires k < layout.count
    requires RawDataPlaced(target, layout.End(), |buf|)
    requires layout.End() - SectionSize <= i < |buf| - SectionSize - target.sizeOfRawData
    ensures TailSource(i, target) < |buf|
    ensures CutSlot(buf, layout, k, target)[i] == buf[TailSource(i, target)]
  {
    SlotInside(k, layout.count);
    var withoutData := CutRawData(buf, target);
    var slot := layout.start + SectionSize * k;
    var j := i + SectionSize;
    assert CutSlot(buf, layout, k, target)[i] == withoutData[j];
  }

  /** Byte `i` before the table, other than NumberOfSections, is kept. */
  lemma CutAndRecountPrefixAt(buf: seq<byte>, nt: nat, layout: TableLayout, k: nat, target: SectionHeader, i: nat)
    requires Fits(buf, nt, layout)
    requires k < layout.count
    requires RawDataPlaced(target, layout.End(), |buf|)
    requires i < layout.start && !(nt + NumberOfSectionsOffset <= i < nt + NumberOfSectionsOffset + 2)
    ensures i < |CutAndRecount(buf, nt, layout, k, target)|
    ensures CutAndRecount(buf, nt, layout, k, target)[i] == buf[i]
  {
    SlotInside(k, layout.count);
    var withoutData := CutRawData(buf, target);
    var slot := layout.start + SectionSize * k;
    var r := CutAndRecount(buf, nt, layout, k, target);
    assert r[i] == CutSlot(buf, layout, k, target)[i];
    assert CutSlot(buf, layout, k, target)[i] == withoutData[i];
  }

  /** Byte `i` past the new table end is the old byte `TailSource(i, target)`. */
  lemma CutAndRecountTailAt(buf: seq<byte>, nt: nat, layout: TableLayout, k: nat, target: SectionHeader, i: nat)
    requires Fits(buf, nt, layout)
    requires k < layout.count
    requires RawDataPlaced(target, layout.End(), |buf|)
    requires layout.End() - SectionSize <= i < |CutAndRecount(buf, nt, layout, k, target)|
    ensures TailSource(i, target) < |buf|
    ensures CutAndRecount(buf, nt, layout, k, target)[i] == buf[TailSource(i, target)]
  {
    assert CutAndRecount(buf, nt, layout, k, target)[i] == CutSlot(buf, layout, k, target)[i];
    CutSlotTailAt(buf, layout, k, target, i);
  }

  lemma CutAndRecountFacts(buf: seq<byte>, nt: nat, layout: TableLayout, k: nat, target: SectionHeader)
    requires Fits(buf, nt, layout)
    requires k < layout.count
    requires RawDataPlaced(target, layout.End(), |buf|)
    ensures var r := CutAndRecount(buf, nt, layout, k, target);
      && nt + OptionalHeaderOffset <= layout.start <= layout.End() - SectionSize <= |r|
      && ReadLE(r, nt + NumberOfSectionsOffset, 2) == layout.count - 1
      && (forall i :: 0 <= i < layout.start && !(nt + NumberOfSectionsOffset <= i < nt + NumberOfSectionsOffset + 2)
            ==> r[i] == buf[i])
      && (forall i :: layout.End() - SectionSize <= i < |r| ==>
            TailSource(i, target) < |buf| && r[i] == buf[TailSource(i, target)])
  {
    SlotInside(k, layout.count);
    forall i | 0 <= i < layout.start && !(nt + NumberOfSectionsOffset <= i < nt + NumberOfSectionsOffset + 2)
      ensures CutAndRecount(buf, nt, layout, k, target)[i] == buf[i]
    {
      CutAndRecountPrefixAt(buf, nt, layout, k, target, i);
    }
    forall i | layout.End() - SectionSize <= i < |CutAndRecount(buf, nt, layout, k, target)|
      ensures TailSource(i, target) < |buf| && CutAndRecount(buf, nt, layout, k, target)[i] == buf[TailSource(i, target)]
    {
      CutAndRecountTailAt(buf, nt, layout, k, target, i);
    }
  }

  /** The buffer after deleting descriptor `k`. The raw data (the higher
      range) is cut first, then the table slot, so neither offset is stale;
      then the count is decremented and the surviving records are written back. */
  function Rebuild(buf: seq<byte>, nt: nat, layout: TableLayout, k: nat, target: SectionHeader,
                   remaining: seq<SectionHeader>): (r: seq<byte>)
    requires Fits(buf, nt, layout)
    requires k < layout.count
    requires RawDataPlaced(target, layout.End(), |buf|)
    requires |remaining| == layout.count - 1
    requires forall i :: 0 <= i < |remaining| ==> remaining[i].Valid()
    ensures |r| == |buf| - SectionSize - target.sizeOfRawData
  {
    Overwrite(CutAndRecount(buf, nt, layout, k, target), layout.start, EncodeTable(remaining))
  }

  /** Byte `y` past the new table end of the rebuilt buffer. */
  lemma RebuildTailAt(buf: seq<byte>, nt: nat, layout: TableLayout, k: nat, target: SectionHeader,
                      remaining: seq<SectionHeader>, y: nat)
    requires Fits(buf, nt, layout)
    requires k < layout.count
    requires RawDataPlaced(target, layout.End(), |buf|)
    requires |remaining| == layout.count - 1
    requires forall i :: 0 <= i < |remaining| ==> remaining[i].Valid()
    requires layout.End() - SectionSize <= y < |buf| - SectionSize - target.sizeOfRawData
    ensures TailSource(y, target) < |buf|
    ensures Rebuild(buf, nt, layout, k, target, remaining)[y] == buf[TailSource(y, target)]
  {
    var c := CutAndRecount(buf, nt, layout, k, target);
    var enc := EncodeTable(remaining);
    assert Rebuild(buf, nt, layout, k, target, remaining) == Overwrite(c, layout.start, enc);
    CutAndRecountTailAt(buf, nt, layout, k, target, y);
  }

  lemma RebuildFacts(buf: seq<byte>, nt: nat, layout: TableLayout, k: nat, target: SectionHeader,
                     remaining: seq<SectionHeader>)
    requires Fits(buf, nt, layout)
    requires k < layout.count
    requires RawDataPlaced(target, layout.End(), |buf|)
    requires |remaining| == layout.count - 1
    requires forall i :: 0 <= i < |remaining| ==> remaining[i].Valid()
    ensures var r := Rebuild(buf, nt, layout, k, target, remaining);
      && nt + OptionalHeaderOffset <= layout.start <= layout.End() - SectionSize <= |r|
      && ReadLE(r, nt + NumberOfSectionsOffset, 2) == layout.count - 1
      && (forall i :: 0 <= i < layout.start && !(nt + NumberOfSectionsOffset <= i < nt + NumberOfSectionsOffset + 2)
            ==> r[i] == buf[i])
      && (forall i :: layout.End() - SectionSize <= i < |r| ==>
            TailSource(i, target) < |buf| && r[i] == buf[TailSource(i, target)])
      && (forall j :: 0 <= j < |remaining| ==> DecodeSection(Slot(r, layout.start, j)) == remaining[j])
  {
    var c := CutAndRecount(buf, nt, layout, k, target);
    CutAndRecountFacts(buf, nt, layout, k, target);
    var enc := EncodeTable(remaining);
    var r := Rebuild(buf, nt, layout, k, target, remaining);
    assert r == Overwrite(c, layout.start, enc);
    assert layout.start + |enc| == layout.End() - SectionSize;
    ReadAgree(r, c, nt + NumberOfSectionsOffset, 2);
    forall i | 0 <= i < layout.start && !(nt + NumberOfSectionsOffset <= i < nt + NumberOfSectionsOffset + 2)
      ensures r[i] == buf[i]
    {
      assert r[i] == c[i];
    }
    forall i | layout.End() - SectionSize <= i < |r|
      ensures TailSource(i, target) < |buf| && r[i] == buf[TailSource(i, target)]
    {
      assert r[i] == c[i];
    }
    forall j | 0 <= j < |remaining|
      ensures DecodeSection(Slot(r, layout.start, j)) == remaining[j]
    {
      WrittenTableDecodes(c, layout.start, remaining, j);
    }
  }

  /** The outcome of a deletion: the new buffer, the index and record of the
      deleted descriptor, and the surviving records as written back. */
  datatype Deletion = Deletion(image: seq<byte>, index: nat, removed: SectionHeader, remaining: seq<SectionHeader>)

  /** `LocateTable` only returns layouts that `Fits`. */
  lemma LocatedFits(buf: seq<byte>, nt: nat, layout: TableLayout)
    requires LocateTable(buf, nt) == Ok(layout)
    ensures Fits(buf, nt, layout)
  {
    Pow256Widths();
  }

  /** Deleting descriptor `k` of `table`, the table at `layout` in `buf`. */
  function DeleteAt(buf: seq<byte>, nt: nat, layout: TableLayout, table: seq<SectionHeader>, k: nat, rebase: bool)
    : (d: Deletion)
    requires Fits(buf, nt, layout)
    requires |table| == layout.count && k < |table|
    requires forall i :: 0 <= i < |table| ==> table[i].Valid()
    requires RawDataPlaced(table[k], layout.End(), |buf|)
    ensures d.index == k && d.removed == table[k]
    ensures |d.remaining| == |table| - 1
    ensures |d.image| == |buf| - SectionSize - table[k].sizeOfRawData
  {
    var remaining := Remaining(table, k, layout.End(), rebase);
    Deletion(Rebuild(buf, nt, layout, k, table[k], remaining), k, table[k], remaining)
  }

  /** `DeleteSection` on the image `buf` whose NT headers are at `nt`. The
      table is re-derived from the bytes; the first descriptor whose name
      matches is deleted. `rebase` selects the raw-pointer fixup: false is
      the source's, true also accounts for the 0x28 bytes the table loses. */
  function Delete(buf: seq<byte>, nt: nat, name: seq<byte>, rebase: bool): (r: Result<Deletion>)
    ensures ParseSections(buf, nt).Err? ==> r == Err(ParseSections(buf, nt).error)
    ensures ParseSections(buf, nt).Ok? && FindByName(ParseSections(buf, nt).value, name).None? ==> r == Err(NotFound)
    ensures r.Ok? ==> && ParseSections(buf, nt).Ok?
                      && FindByName(ParseSections(buf, nt).value, name) == Some(r.value.index)
                      && r.value.removed == ParseSections(buf, nt).value[r.value.index]
                      && LocateTable(buf, nt).Ok?
                      && RawDataPlaced(r.value.removed, LocateTable(buf, nt).value.End(), |buf|)
    ensures ParseSections(buf, nt).Ok? && LocateTable(buf, nt).Ok?
            && FindByName(ParseSections(buf, nt).value, name).Some?
            && !RawDataPlaced(ParseSections(buf, nt).value[FindByName(ParseSections(buf, nt).value, name).value],
                              LocateTable(buf, nt).value.End(), |buf|)
            ==> r == Err(Format(RangeOutOfBounds))
  {
    match ParseSections(buf, nt)
    case Err(e) => Err(e)
    case Ok(table) =>
      match FindByName(table, name)
      case None => Err(NotFound)
      case Some(k) =>
        var layout := LocateTable(buf, nt).value;
        LocatedFits(buf, nt, layout);
        if !RawDataPlaced(table[k], layout.End(), |buf|) then Err(Format(RangeOutOfBounds))
        else Ok(DeleteAt(buf, nt, layout, table, k, rebase))
  }

  /** The source's own fixup. */
  function DeleteSection(buf: seq<byte>, nt: nat, name: seq<byte>): Result<Deletion>
  {
    Delete(buf, nt, name, false)
  }

  /** The fixup that keeps every surviving raw pointer on its data. */
  function DeleteSectionRebased(buf: seq<byte>, nt: nat, name: seq<byte>): Result<Deletion>
  {
    Delete(buf, nt, name, true)
  }

  /** A successful `Delete` is `DeleteAt` on the enumerated table, at the first
      descriptor carrying the name, provided its raw data lies after the table
      and inside the buffer; the lemmas about `DeleteAt` below therefore
      describe every successful `Delete`. */
  lemma DeleteParts(buf: seq<byte>, nt: nat, name: seq<byte>, rebase: bool, d: Deletion,
                    table: seq<SectionHeader>, layout: TableLayout)
    requires Delete(buf, nt, name, rebase) == Ok(d)
    requires ParseSections(buf, nt) == Ok(table)
    requires LocateTable(buf, nt) == Ok(layout)
    ensures Fits(buf, nt, layout)
    ensures |table| == layout.count
    ensures forall i :: 0 <= i < |table| ==> table[i].Valid() && table[i].Dotted()
    ensures FindByName(table, name) == Some(d.index)
    ensures d.index < |table| && RawDataPlaced(table[d.index], layout.End(), |buf|)
    ensures d == DeleteAt(buf, nt, layout, table, d.index, rebase)
  {
    DeleteSucceeds(buf, nt, name, rebase, table, layout, d.index);
  }

  /** The other direction: when the name is found and its raw data is placed,
      `Delete` succeeds. */
  lemma DeleteSucceeds(buf: seq<byte>, nt: nat, name: seq<byte>, rebase: bool,
                       table: seq<SectionHeader>, layout: TableLayout, k: nat)
    requires ParseSections(buf, nt) == Ok(table)
    requires LocateTable(buf, nt) == Ok(layout)
    requires FindByName(table, name) == Some(k)
    requires RawDataPlaced(table[k], layout.End(), |buf|)
    ensures Fits(buf, nt, layout) && |table| == layout.count
    ensures forall i :: 0 <= i < |table| ==> table[i].Valid()
    ensures Delete(buf, nt, name, rebase) == Ok(DeleteAt(buf, nt, layout, table, k, rebase))
  {
    LocatedFits(buf, nt, layout);
  }

  /** A name no descriptor carries is refused, and nothing is produced. */
  lemma DeleteUnknownName(buf: seq<byte>, nt: nat, name: seq<byte>, rebase: bool, table: seq<SectionHeader>)
    requires ParseSections(buf, nt) == Ok(table)
    ensures Delete(buf, nt, name, rebase) == Err(NotFound)
        <==> forall j :: 0 <= j < |table| ==> !Matches(table[j], name)
  {
  }

  /** Survivors keep their names, so they stay dotted. */
  lemma RemainingDotted(table: seq<SectionHeader>, k: nat, tableEnd: nat, rebase: bool)
    requires k < |table|
    requires forall j :: 0 <= j < |table| ==> table[j].Valid() && table[j].Dotted()
    ensures forall j :: 0 <= j < |table| - 1 ==> Remaining(table, k, tableEnd, rebase)[j].Dotted()
  {
    forall j | 0 <= j < |table| - 1
      ensures Remaining(table, k, tableEnd, rebase)[j].Dotted()
    {
      RemainingFields(table, k, tableEnd, rebase, j);
    }
  }

  /** The rebuilt buffer enumerates as exactly the records written back. */
  lemma RebuildParses(buf: seq<byte>, nt: nat, layout: TableLayout, k: nat, target: SectionHeader,
                      remaining: seq<SectionHeader>)
    requires LocateTable(buf, nt) == Ok(layout)
    requires k < layout.count
    requires RawDataPlaced(target, layout.End(), |buf|)
    requires |remaining| == layout.count - 1
    requires forall i :: 0 <= i < |remaining| ==> remaining[i].Valid() && remaining[i].Dotted()
    ensures ParseSections(Rebuild(buf, nt, layout, k, target, remaining), nt) == Ok(remaining)
  {
    LocatedFits(buf, nt, layout);
    RebuiltTable(buf, nt, layout, k, target, remaining);
    ParseSectionsExact(Rebuild(buf, nt, layout, k, target, remaining), nt, remaining);
  }

  /** The rebuilt buffer announces a table one descriptor shorter at the
      same place, and its slots decode to the records written back. */
  lemma RebuiltTable(buf: seq<byte>, nt: nat, layout: TableLayout, k: nat, target: SectionHeader,
                     remaining: seq<SectionHeader>)
    requires LocateTable(buf, nt) == Ok(layout)
    requires k < layout.count
    requires RawDataPlaced(target, layout.End(), |buf|)
    requires |remaining| == layout.count - 1
    requires forall i :: 0 <= i < |remaining| ==> remaining[i].Valid()
    ensures var r := Rebuild(buf, nt, layout, k, target, remaining);
      && LocateTable(r, nt) == Ok(TableLayout(layout.start, layout.count - 1))
      && forall j :: 0 <= j < |remaining| ==> DecodeSection(Slot(r, layout.start, j)) == remaining[j]
  {
    LocatedFits(buf, nt, layout);
    var r := Rebuild(buf, nt, layout, k, target, remaining);
    assert TableStart(r, nt) == layout.start && SectionCount(r, nt) == layout.count - 1 by {
      RebuildFacts(buf, nt, layout, k, target, remaining);
      ReadAgree(r, buf, nt + SizeOfOptionalHeaderOffset, 2);
    }
    assert forall j :: 0 <= j < |remaining| ==> DecodeSection(Slot(r, layout.start, j)) == remaining[j] by {
      RebuildFacts(buf, nt, layout, k, target, remaining);
    }
  }

  /** A deletion removes exactly one descriptor and its raw bytes: the
      section count drops by one, the buffer by 0x28 plus the deleted
      SizeOfRawData, and enumerating the new buffer yields exactly the
      surviving records. */
  lemma DeleteShrinksTable(buf: seq<byte>, nt: nat, name: seq<byte>, rebase: bool, d: Deletion)
    requires Delete(buf, nt, name, rebase) == Ok(d)
    ensures ParseSections(buf, nt).Ok?
    ensures |d.image| == |buf| - 0x28 - d.removed.sizeOfRawData
    ensures ParseSections(d.image, nt) == Ok(d.remaining)
    ensures |d.remaining| == |ParseSections(buf, nt).value| - 1
  {
    var table := ParseSections(buf, nt).value;
    var layout := LocateTable(buf, nt).value;
    DeleteParts(buf, nt, name, rebase, d, table, layout);
    RemainingDotted(table, d.index, layout.End(), rebase);
    RebuildParses(buf, nt, layout, d.index, d.removed, d.remaining);
  }

  /** The descriptor fixups, as they show in survivor `i` of `r`: it keeps
      its name, VirtualAddress, SizeOfRawData and trailing fields; its
      PointerToRawData is lowered (in DWORD arithmetic) by the deleted
      SizeOfRawData when it lay above the deleted one, and, when rebasing,
      by 0x28 more when it points at or past the end of the table; its
      VirtualSize becomes the distance to the next VirtualAddress when its
      own address is below the deleted one and it has a successor. */
  predicate FixedUp(r: seq<SectionHeader>, table: seq<SectionHeader>, k: nat, tableEnd: nat, rebase: bool, i: nat)
    requires k < |table| && i < |table| - 1 && |r| == |table| - 1
  {
    var o := table[Survivor(i, k)];
    var t := table[k];
    && r[i].name == o.name
    && r[i].virtualAddress == o.virtualAddress
    && r[i].sizeOfRawData == o.sizeOfRawData
    && r[i].trailer == o.trailer
    && r[i].pointerToRawData ==
         Dword(o.pointerToRawData
           - (if o.pointerToRawData > t.pointerToRawData then t.sizeOfRawData else 0)
           - (if rebase && o.pointerToRawData >= tableEnd then 0x28 else 0))
    && r[i].virtualSize ==
         if i + 1 < |r| && o.virtualAddress < t.virtualAddress
         then Dword(r[i + 1].virtualAddress - o.virtualAddress)
         else o.virtualSize
  }

  /** The fixups of survivor `i`, in terms of its old record and its new successor. */
  lemma RemainingAt(table: seq<SectionHeader>, k: nat, tableEnd: nat, rebase: bool, i: nat)
    requires k < |table|
    requires forall j :: 0 <= j < |table| ==> table[j].Valid()
    requires i < |table| - 1
    ensures FixedUp(Remaining(table, k, tableEnd, rebase), table, k, tableEnd, rebase, i)
  {
    RemainingFields(table, k, tableEnd, rebase, i);
    if i + 1 < |table| - 1 {
      RemainingFields(table, k, tableEnd, rebase, i + 1);
    }
  }

  /** Every survivor carries the descriptor fixups, and the survivors keep
      table order (survivor `i` is old descriptor `Survivor(i, k)`). */
  lemma DeleteFixups(table: seq<SectionHeader>, k: nat, tableEnd: nat, rebase: bool)
    requires k < |table|
    requires forall j :: 0 <= j < |table| ==> table[j].Valid()
    ensures forall i :: 0 <= i < |table| - 1 ==>
      FixedUp(Remaining(table, k, tableEnd, rebase), table, k, tableEnd, rebase, i)
  {
    forall i | 0 <= i < |table| - 1
      ensures FixedUp(Remaining(table, k, tableEnd, rebase), table, k, tableEnd, rebase, i)
    {
      RemainingAt(table, k, tableEnd, rebase, i);
    }
  }

  /** Outside the section table only the NumberOfSections field changes:
      every byte before the table is kept, and the bytes after the new table
      end are the old bytes after the table with the deleted raw data cut out. */
  lemma DeleteKeepsRest(buf: seq<byte>, nt: nat, layout: TableLayout, table: seq<SectionHeader>, k: nat, rebase: bool)
    requires Fits(buf, nt, layout)
    requires |table| == layout.count && k < |table|
    requires forall i :: 0 <= i < |table| ==> table[i].Valid()
    requires RawDataPlaced(table[k], layout.End(), |buf|)
    ensures var r := DeleteAt(buf, nt, layout, table, k, rebase).image;
      && layout.End() - 0x28 <= |r|
      && (forall i :: 0 <= i < layout.start && !(nt + 6 <= i < nt + 8) ==> r[i] == buf[i])
      && (forall i :: layout.End() - 0x28 <= i < |r| ==>
            TailSource(i, table[k]) < |buf| && r[i] == buf[TailSource(i, table[k])])
  {
    RebuildFacts(buf, nt, layout, k, table[k], Remaining(table, k, layout.End(), rebase));
  }

  /** Neither raw range is empty and they do not overlap. */
  predicate RawDisjoint(a: SectionHeader, b: SectionHeader)
  {
    a.sizeOfRawData > 0 && b.sizeOfRawData > 0
    && (a.pointerToRawData + a.sizeOfRawData <= b.pointerToRawData
        || b.pointerToRawData + b.sizeOfRawData <= a.pointerToRawData)
  }

  /** A survivor `o` whose raw data lies at or after `tableEnd`, inside a
      buffer of `size` bytes and clear of the deleted section's raw data. */
  predicate Movable(o: SectionHeader, deleted: SectionHeader, tableEnd: nat, size: nat)
  {
    && RawDisjoint(o, deleted)
    && tableEnd <= o.pointerToRawData
    && o.pointerToRawData + o.sizeOfRawData <= size
  }

  /** Every byte of `r` from `from` on is the byte of `buf` that `TailSource`
      names: the shape of the buffer after the table. */
  predicate TailMapped(r: seq<byte>, buf: seq<byte>, from: nat, target: SectionHeader)
  {
    forall y :: from <= y < |r| ==> TailSource(y, target) < |buf| && r[y] == buf[TailSource(y, target)]
  }

  /** The raw data of `o` in `buf` appears unchanged in `r` at offset `at`. */
  predicate RawAt(r: seq<byte>, at: int, buf: seq<byte>, o: SectionHeader)
  {
    && 0 <= at && at + o.sizeOfRawData <= |r|
    && o.pointerToRawData + o.sizeOfRawData <= |buf|
    && r[at .. at + o.sizeOfRawData] == buf[o.pointerToRawData .. o.pointerToRawData + o.sizeOfRawData]
  }

  /** Where raw data at `o`'s old offset sits once the table has lost 0x28
      bytes and `deleted`'s raw data has been cut out. */
  function MovedOffset(o: SectionHeader, deleted: SectionHeader): int
  {
    o.pointerToRawData - 0x28 - (if o.pointerToRawData > deleted.pointerToRawData then deleted.sizeOfRawData else 0)
  }

  /** Raw data clear of the deleted range, in a buffer shaped by `TailMapped`,
      sits 0x28 bytes lower, and the deleted SizeOfRawData lower still if it
      came after the deleted data. */
  lemma MovedRange(r: seq<byte>, buf: seq<byte>, tableEnd: nat, target: SectionHeader, o: SectionHeader)
    requires SectionSize <= tableEnd
    requires TailMapped(r, buf, tableEnd - SectionSize, target)
    requires |r| == |buf| - SectionSize - target.sizeOfRawData
    requires RawDataPlaced(target, tableEnd, |buf|)
    requires Movable(o, target, tableEnd, |buf|)
    ensures RawAt(r, MovedOffset(o, target), buf, o)
  {
    var at := MovedOffset(o, target);
    forall y | at <= y < at + o.sizeOfRawData
      ensures r[y] == buf[o.pointerToRawData + (y - at)]
    {
      assert TailSource(y, target) == o.pointerToRawData + (y - at);
    }
    SliceShift(r, at, buf, o.pointerToRawData, o.sizeOfRawData);
  }

  /** Where raw data clear of the deleted range ends up in the rebuilt buffer. */
  lemma RebuildMovesRange(buf: seq<byte>, nt: nat, layout: TableLayout, k: nat, target: SectionHeader,
                          remaining: seq<SectionHeader>, o: SectionHeader)
    requires Fits(buf, nt, layout)
    requires k < layout.count
    requires RawDataPlaced(target, layout.End(), |buf|)
    requires |remaining| == layout.count - 1
    requires forall i :: 0 <= i < |remaining| ==> remaining[i].Valid()
    requires Movable(o, target, layout.End(), |buf|)
    ensures RawAt(Rebuild(buf, nt, layout, k, target, remaining), MovedOffset(o, target), buf, o)
  {
    RebuildFacts(buf, nt, layout, k, target, remaining);
    MovedRange(Rebuild(buf, nt, layout, k, target, remaining), buf, layout.End(), target, o);
  }

  /** Where a survivor's raw data ends up: 0x28 bytes below its old offset,
      and the deleted SizeOfRawData lower still if it came after the deleted data. */
  lemma RawDataMoves(buf: seq<byte>, nt: nat, layout: TableLayout, table: seq<SectionHeader>, k: nat, rebase: bool, i: nat)
    requires Fits(buf, nt, layout)
    requires |table| == layout.count && k < |table|
    requires forall j :: 0 <= j < |table| ==> table[j].Valid()
    requires RawDataPlaced(table[k], layout.End(), |buf|)
    requires i < |table| - 1
    requires Movable(table[Survivor(i, k)], table[k], layout.End(), |buf|)
    ensures RawAt(DeleteAt(buf, nt, layout, table, k, rebase).image, MovedOffset(table[Survivor(i, k)], table[k]),
                  buf, table[Survivor(i, k)])
  {
    var remaining := Remaining(table, k, layout.End(), rebase);
    assert DeleteAt(buf, nt, layout, table, k, rebase).image == Rebuild(buf, nt, layout, k, table[k], remaining);
    RebuildMovesRange(buf, nt, layout, k, table[k], remaining, table[Survivor(i, k)]);
  }

  /** Survivor `i` keeps its record apart from the fixed-up PointerToRawData. */
  lemma RemainingPointer(table: seq<SectionHeader>, k: nat, tableEnd: nat, rebase: bool, i: nat)
    requires k < |table|
    requires forall j :: 0 <= j < |table| ==> table[j].Valid()
    requires i < |table| - 1
    ensures Remaining(table, k, tableEnd, rebase)[i].pointerToRawData
         == FixRawPointer(table[Survivor(i, k)].pointerToRawData, table[k], tableEnd, rebase)
  {
    RemainingFields(table, k, tableEnd, rebase, i);
  }

  /** The fixed-up pointer of a movable survivor: 0x28 above where its data
      now sits with the source's fixup, exactly there with the rebased one. */
  lemma FixedPointerOffset(o: SectionHeader, target: SectionHeader, tableEnd: nat, size: nat, rebase: bool)
    requires o.Valid() && target.Valid()
    requires RawDataPlaced(target, tableEnd, size)
    requires Movable(o, target, tableEnd, size)
    requires SectionSize <= tableEnd
    ensures FixRawPointer(o.pointerToRawData, target, tableEnd, rebase)
         == MovedOffset(o, target) + (if rebase then 0 else 0x28)
  {
    var p := o.pointerToRawData;
    if p > target.pointerToRawData {
      assert target.pointerToRawData + target.sizeOfRawData <= p;
    }
    assert 0 <= MovedOffset(o, target) + (if rebase then 0 else 0x28) < U32;
  }

  /** As written, a survivor's PointerToRawData is 0x28 too high: its data
      now starts 0x28 bytes before the offset the descriptor records. */
  lemma StaleRawPointer(buf: seq<byte>, nt: nat, layout: TableLayout, table: seq<SectionHeader>, k: nat, i: nat)
    requires Fits(buf, nt, layout)
    requires |table| == layout.count && k < |table|
    requires forall j :: 0 <= j < |table| ==> table[j].Valid()
    requires RawDataPlaced(table[k], layout.End(), |buf|)
    requires i < |table| - 1
    requires Movable(table[Survivor(i, k)], table[k], layout.End(), |buf|)
    ensures var d := DeleteAt(buf, nt, layout, table, k, false);
      RawAt(d.image, d.remaining[i].pointerToRawData - 0x28, buf, table[Survivor(i, k)])
  {
    var d := DeleteAt(buf, nt, layout, table, k, false);
    RemainingPointer(table, k, layout.End(), false, i);
    FixedPointerOffset(table[Survivor(i, k)], table[k], layout.End(), |buf|, false);
    assert d.remaining[i].pointerToRawData - 0x28 == MovedOffset(table[Survivor(i, k)], table[k]);
    RawDataMoves(buf, nt, layout, table, k, false, i);
  }

  /** With the rebased fixup, every survivor whose raw data lies after the
      table and clear of the deleted data still finds exactly its old bytes
      at its new PointerToRawData. */
  lemma RebasedRawDataFollows(buf: seq<byte>, nt: nat, layout: TableLayout, table: seq<SectionHeader>, k: nat, i: nat)
    requires Fits(buf, nt, layout)
    requires |table| == layout.count && k < |table|
    requires forall j :: 0 <= j < |table| ==> table[j].Valid()
    requires RawDataPlaced(table[k], layout.End(), |buf|)
    requires i < |table| - 1
    requires Movable(table[Survivor(i, k)], table[k], layout.End(), |buf|)
    ensures var d := DeleteAt(buf, nt, layout, table, k, true);
      RawAt(d.image, d.remaining[i].pointerToRawData, buf, table[Survivor(i, k)])
  {
    var d := DeleteAt(buf, nt, layout, table, k, true);
    RemainingPointer(table, k, layout.End(), true, i);
    FixedPointerOffset(table[Survivor(i, k)], table[k], layout.End(), |buf|, true);
    assert d.remaining[i].pointerToRawData == MovedOffset(table[Survivor(i, k)], table[k]);
    RawDataMoves(buf, nt, layout, table, k, true, i);
  }

  /** The source's two erasures: first the table slot, then
      `erase(begin + PointerToRawData, begin + SizeOfRawData)` on the
      already shortened buffer. A reversed or out-of-range iterator pair is
      undefined behaviour in C++ and is reported as `RangeOutOfBounds` here. */
  function EraseAsWritten(buf: seq<byte>, slot: nat, target: SectionHeader): (r: Result<seq<byte>>)
    requires slot + SectionSize <= |buf|
    ensures r.Ok? <==> target.pointerToRawData <= target.sizeOfRawData <= |buf| - SectionSize
    ensures r.Ok? ==> |r.value| == |buf| - SectionSize - (target.sizeOfRawData - target.pointerToRawData)
    ensures r.Err? ==> r.error == Format(RangeOutOfBounds)
    ensures r.Ok? ==> var shrunk := buf[..slot] + buf[slot + SectionSize..];
      r.value == shrunk[..target.pointerToRawData] + shrunk[target.sizeOfRawData..]
  {
    var shrunk := Excise(buf, slot, slot + SectionSize);
    if target.pointerToRawData <= target.sizeOfRawData <= |shrunk|
    then Ok(Excise(shrunk, target.pointerToRawData, target.sizeOfRawData))
    else Err(Format(RangeOutOfBounds))
  }

  /** For every deletion of a section that has raw data, the source's erasure
      is undefined or removes a different number of bytes than the
      0x28 + SizeOfRawData a deletion removes. */
  lemma EraseAsWrittenWrongLength(buf: seq<byte>, nt: nat, layout: TableLayout, table: seq<SectionHeader>, k: nat, rebase: bool)
    requires Fits(buf, nt, layout)
    requires |table| == layout.count && k < |table|
    requires forall j :: 0 <= j < |table| ==> table[j].Valid()
    requires RawDataPlaced(table[k], layout.End(), |buf|)
    requires table[k].sizeOfRawData > 0
    ensures var slot := layout.start + 0x28 * k;
      && slot + 0x28 <= |buf|
      && var e := EraseAsWritten(buf, slot, table[k]);
         e.Err? || |e.value| != |DeleteAt(buf, nt, layout, table, k, rebase).image|
  {
    SlotInside(k, layout.count);
  }

  /** The old table index of the record that pointer `m` of the source's
      shortened descriptor list addresses once the table slot of descriptor
      `k` has been erased from the buffer: the pointers keep their
      addresses, and every record from slot `k` on has moved down one slot,
      so pointer `m >= k` (which held old record `m + 1`) now reaches old
      record `m + 2`. */
  function AliasedRecord(m: nat, k: nat): nat
  {
    if m < k then m else m + 2
  }

  /** The VirtualSize the source's repair loop computes at step `i`, reading
      both VirtualAddresses through the shifted pointers. */
  function AliasedVirtualSize(table: seq<SectionHeader>, k: nat, i: nat): nat
    requires 1 <= i && AliasedRecord(i, k) < |table|
  {
    Dword(table[AliasedRecord(i, k)].virtualAddress - table[AliasedRecord(i - 1, k)].virtualAddress)
  }

  /** When the deleted section sits between two mapped neighbours and
      VirtualAddresses increase, the repair should stretch the section
      before it up to the section after it; the source's step `k` instead
      measures the distance to the section after that one. */
  lemma AliasedGapRepairWrong(table: seq<SectionHeader>, k: nat, tableEnd: nat, rebase: bool)
    requires forall j :: 0 <= j < |table| ==> table[j].Valid()
    requires 1 <= k && k + 2 < |table|
    requires table[k - 1].virtualAddress < table[k].virtualAddress < table[k + 1].virtualAddress < table[k + 2].virtualAddress
    ensures AliasedRecord(k - 1, k) == k - 1
    ensures Remaining(table, k, tableEnd, rebase)[k - 1].virtualSize == table[k + 1].virtualAddress - table[k - 1].virtualAddress
    ensures AliasedVirtualSize(table, k, k) != Remaining(table, k, tableEnd, rebase)[k - 1].virtualSize
  {
    RemainingFields(table, k, tableEnd, rebase, k - 1);
  }
}

=== FILE: headers.dfy ===
/** Locating the DOS header and the NT headers of a PE image, and the
    NT header fields the rest of the editor reads (offsets as in the
    Microsoft "PE Format" document: MS-DOS stub, signature, COFF file header). */
module Headers {
  import opened Bytes
  import opened Results

  /** "MZ", the two bytes at offset 0 (IMAGE_DOS_SIGNATURE). */
  const DosMagic: seq<byte> := [0x4D, 0x5A]
  /** Offset of e_lfanew, the file offset of the NT headers, in the DOS header. */
  const LfanewOffset: nat := 0x3C
  /** Size of IMAGE_DOS_HEADER; e_lfanew is its last field. */
  const DosHeaderSize: nat := 0x40
  /** "PE\0\0" (IMAGE_NT_SIGNATURE). */
  const NtSignature: seq<byte> := [0x50, 0x45, 0x00, 0x00]
  /** Offsets relative to the NT headers: FileHeader.NumberOfSections,
      FileHeader.SizeOfOptionalHeader, and the start of the optional header. */
  const NumberOfSectionsOffset: nat := 6
  const SizeOfOptionalHeaderOffset: nat := 20
  const OptionalHeaderOffset: nat := 0x18

  /** The DOS signature check of `FindDosHeader`. */
  function CheckDosSignature(buf: seq<byte>): (r: Result<()>)
    ensures r.Ok? <==> |buf| >= 2 && buf[0] == 0x4D && buf[1] == 0x5A
    ensures r.Err? ==> r.error == Format(BadDosSignature)
  {
    if |buf| >= 2 && buf[..2] == DosMagic then Ok(()) else Err(Format(BadDosSignature))
  }

  /** e_lfanew, a signed 32-bit LONG. */
  function Lfanew(buf: seq<byte>): int
    requires |buf| >= DosHeaderSize
  {
    var raw := ReadLE(buf, LfanewOffset, 4);
    if raw < 0x8000_0000 then raw else raw - U32
  }

  /** Where the NT headers start, provided e_lfanew points inside the buffer
      far enough that the signature can be read. */
  function NtHeadersOffset(buf: seq<byte>): (r: Result<nat>)
    ensures r.Ok? <==> |buf| >= DosHeaderSize && 0 <= Lfanew(buf) && Lfanew(buf) + 4 <= |buf|
    ensures r.Ok? ==> r.value == Lfanew(buf)
    ensures r.Err? ==> r.error == Format(Truncated)
  {
    if |buf| < DosHeaderSize then Err(Format(Truncated))
    else
      var lfanew := Lfanew(buf);
      if lfanew < 0 || lfanew + 4 > |buf| then Err(Format(Truncated)) else Ok(lfanew)
  }

  /** The NT signature check of `FindNtHeaders`. */
  predicate HasNtSignature(buf: seq<byte>, nt: nat)
  {
    nt + 4 <= |buf| && buf[nt..nt + 4] == NtSignature
  }

  /** FileHeader.NumberOfSections (a WORD). */
  function SectionCount(buf: seq<byte>, nt: nat): nat
    requires nt + OptionalHeaderOffset <= |buf|
  {
    ReadLE(buf, nt + NumberOfSectionsOffset, 2)
  }

  /** The first section descriptor follows the optional header
      (IMAGE_FIRST_SECTION, the same expression as the source's
      `e_lfanew + SizeOfOptionalHeader + 0x18`). */
  function TableStart(buf: seq<byte>, nt: nat): nat
    requires nt + OptionalHeaderOffset <= |buf|
  {
    nt + OptionalHeaderOffset + ReadLE(buf, nt + SizeOfOptionalHeaderOffset, 2)
  }

  /** `buf` with a DOS signature at 0, e_lfanew set to `nt`, and an NT
      signature at `nt`: the minimum the locator looks for. */
  function StampHeaders(buf: seq<byte>, nt: nat): (r: seq<byte>)
    requires DosHeaderSize <= nt && nt + 4 <= |buf| && nt < 0x8000_0000
    ensures |r| == |buf|
  {
    Pow256Widths();
    var withMagic := Overwrite(buf, 0, DosMagic);
    var withLfanew := WriteLE(withMagic, LfanewOffset, 4, nt);
    Overwrite(withLfanew, nt, NtSignature)
  }

  /** The locator finds exactly the headers a writer placed: both checks pass
      on a stamped buffer, and e_lfanew resolves to the stamped offset. */
  lemma LocateStamped(buf: seq<byte>, nt: nat)
    requires DosHeaderSize <= nt && nt + 4 <= |buf| && nt < 0x8000_0000
    ensures CheckDosSignature(StampHeaders(buf, nt)).Ok?
    ensures NtHeadersOffset(StampHeaders(buf, nt)) == Ok(nt)
    ensures HasNtSignature(StampHeaders(buf, nt), nt)
  {
    Pow256Widths();
    var withMagic := Overwrite(buf, 0, DosMagic);
    var withLfanew := WriteLE(withMagic, LfanewOffset, 4, nt);
    var r := StampHeaders(buf, nt);
    ReadAgree(r, withLfanew, LfanewOffset, 4);
    assert r[nt..nt + 4] == NtSignature;
  }
}

=== FILE: paths.dfy ===
/** The file name the constructor keeps next to the path: everything after
    the last '/' or '\' (`find_last_of` followed by `substr`), or the whole
    path when it has no separator. */
module Paths {
  import opened Results

  /** The two directory separators a Windows path may use. */
  predicate IsSeparator(c: char)
  {
    c == '/' || c == '\\'
  }

  predicate HasNoSeparator(s: string)
  {
    forall i :: 0 <= i < |s| ==> !IsSeparator(s[i])
  }

  /** The index of the last separator in `path`, as `find_last_of` reports it. */
  function LastSeparator(path: string): (r: Option<nat>)
    ensures r.Some? ==> && r.value < |path| && IsSeparator(path[r.value])
                        && HasNoSeparator(path[r.value + 1..])
    ensures r.None? <==> HasNoSeparator(path)
  {
    if |path| == 0 then None
    else if IsSeparator(path[|path| - 1]) then Some(|path| - 1)
    else
      var r := LastSeparator(path[..|path| - 1]);
      assert r.Some? ==> path[r.value + 1..] == path[..|path| - 1][r.value + 1..] + [path[|path| - 1]];
      assert r.None? ==> forall i :: 0 <= i < |path| - 1 ==> path[i] == path[..|path| - 1][i];
      r
  }

  /** The file name with its extension: a separator-free suffix of `path`,
      preceded by a separator whenever it is shorter than the path. */
  function FileName(path: string): (r: string)
    ensures |r| <= |path| && r == path[|path| - |r|..]
    ensures HasNoSeparator(r)
    ensures |r| < |path| ==> IsSeparator(path[|path| - |r| - 1])
  {
    match LastSeparator(path)
    case None => path
    case Some(i) => path[i + 1..]
  }

  /** The name joined to any directory by a separator is recovered. */
  lemma FileNameOfJoin(dir: string, sep: char, name: string)
    requires IsSeparator(sep) && HasNoSeparator(name)
    ensures FileName(dir + [sep] + name) == name
  {
    var path := dir + [sep] + name;
    assert path[|dir|] == sep;
    assert forall i :: |dir| < i < |path| ==> path[i] == name[i - |dir| - 1];
  }

  /** A file name is its own file name. */
  lemma FileNameIdempotent(path: string)
    ensures FileName(FileName(path)) == FileName(path)
  {
    var r := FileName(path);
    assert LastSeparator(r).None?;
  }
}

=== FILE: results.dfy ===
/** The editor's error taxonomy and the result wrapper that replaces the
    source's exceptions and boolean returns. */
module Results {

  /** Why an image was judged malformed. */
  datatype FormatFault =
    | BadDosSignature            // the two bytes at offset 0 are not "MZ"
    | BadNtSignature             // the four bytes at e_lfanew are not "PE\0\0"
    | Truncated                  // a header or table runs past the end of the buffer
    | InvalidSection(index: nat) // the descriptor at `index` has no leading '.' in its name
    | UnknownMagic(magic: nat)   // the optional header is neither PE32 nor PE32+
    | UnmappableRva(rva: nat)    // no section's virtual range contains the address
    | RangeOutOfBounds           // a range to erase or clear is outside the buffer or overlaps the headers

  datatype Error =
    | NoImage                    // the buffer is empty, so there is no image base
    | HeadersNotLocated          // an operation was called before the headers it needs were located
    | Format(fault: FormatFault)
    | NotFound                   // no section descriptor has the requested name
    | OutOfBounds                // a scalar access does not fit in the buffer
    | DuplicateInit              // the section table was enumerated before and re-enumeration was not allowed

  /** Either a value or the error that stopped the operation; usable with `:-`. */
  datatype Result<+T> = Ok(value: T) | Err(error: Error) {

    predicate IsFailure() {
      Err?
    }

    function PropagateFailure<U>(): Result<U>
      requires Err?
    {
      Err(error)
    }

    function Extract(): T
      requires Ok?
    {
      value
    }
  }

  datatype Option<+T> = None | Some(value: T)
}

=== FILE: sections.dfy ===
/** The section table: 40-byte IMAGE_SECTION_HEADER records following the
    optional header, decoded into value records (not pointers into the
    buffer), validated by the leading '.' of each name, and looked up by name. */
module Sections {
  import opened Bytes
  import opened Results
  import opened Headers

  /** Size of one descriptor (SECTION_SIZE). */
  const SectionSize: nat := 0x28
  /** Length of the Name field. */
  const NameLength: nat := 8
  /** '.', the first name byte of every descriptor a standard toolchain emits. */
  const Dot: byte := 0x2E

  /** One descriptor. Name at +0, VirtualSize at +8, VirtualAddress at +12,
      SizeOfRawData at +16, PointerToRawData at +20; `trailer` keeps the
      relocation, line-number and characteristics fields (+24..+40) verbatim. */
  datatype SectionHeader = SectionHeader(
    name: seq<byte>,
    virtualSize: nat,
    virtualAddress: nat,
    sizeOfRawData: nat,
    pointerToRawData: nat,
    trailer: seq<byte>)
  {
    /** The record fits the 40-byte layout. */
    predicate Valid() {
      && |name| == NameLength
      && virtualSize < U32 && virtualAddress < U32
      && sizeOfRawData < U32 && pointerToRawData < U32
      && |trailer| == SectionSize - 24
    }

    /** The structural validity check of the enumeration. */
    predicate Dotted() {
      |name| > 0 && name[0] == Dot
    }
  }

  function DecodeSection(s: seq<byte>): (h: SectionHeader)
    requires |s| == SectionSize
    ensures h.Valid()
  {
    Pow256Widths();
    SectionHeader(s[..8], ReadLE(s, 8, 4), ReadLE(s, 12, 4), ReadLE(s, 16, 4), ReadLE(s, 20, 4), s[24..])
  }

  function EncodeSection(h: SectionHeader): (s: seq<byte>)
    requires h.Valid()
    ensures |s| == SectionSize
  {
    Pow256Widths();
    h.name + EncodeLE(h.virtualSize, 4) + EncodeLE(h.virtualAddress, 4)
      + EncodeLE(h.sizeOfRawData, 4) + EncodeLE(h.pointerToRawData, 4) + h.trailer
  }

  lemma DecodeEncodeSection(h: SectionHeader)
    requires h.Valid()
    ensures DecodeSection(EncodeSection(h)) == h
  {
    Pow256Widths();
    var s := EncodeSection(h);
    assert s[..8] == h.name;
    assert s[8..12] == EncodeLE(h.virtualSize, 4);
    assert s[12..16] == EncodeLE(h.virtualAddress, 4);
    assert s[16..20] == EncodeLE(h.sizeOfRawData, 4);
    assert s[20..24] == EncodeLE(h.pointerToRawData, 4);
    assert s[24..] == h.trailer;
    DecodeEncode(h.virtualSize, 4);
    DecodeEncode(h.virtualAddress, 4);
    DecodeEncode(h.sizeOfRawData, 4);
    DecodeEncode(h.pointerToRawData, 4);
  }

  lemma EncodeDecodeSection(s: seq<byte>)
    requires |s| == SectionSize
    ensures EncodeSection(DecodeSection(s)) == s
  {
    EncodeDecode(s[8..12]);
    EncodeDecode(s[12..16]);
    EncodeDecode(s[16..20]);
    EncodeDecode(s[20..24]);
    assert s == s[..8] + s[8..12] + s[12..16] + s[16..20] + s[20..24] + s[24..];
  }

  /** The 40 bytes of descriptor `i` of a table starting at `start`. */
  function Slot(buf: seq<byte>, start: nat, i: nat): (s: seq<byte>)
    requires start + SectionSize * (i + 1) <= |buf|
    ensures |s| == SectionSize
  {
    buf[start + SectionSize * i .. start + SectionSize * i + SectionSize]
  }

  /** Slot `k` of a table of `count` descriptors lies inside the table. */
  lemma SlotInside(k: nat, count: nat)
    requires k < count
    ensures SectionSize * k + SectionSize <= SectionSize * count
  {
  }

  /** Where the table is and how many descriptors it holds. */
  datatype TableLayout = TableLayout(start: nat, count: nat) {
    function End(): nat {
      start + SectionSize * count
    }
  }

  /** The table position announced by the NT headers at `nt`, provided the
      file header and the whole table lie inside the buffer. */
  function LocateTable(buf: seq<byte>, nt: nat): (r: Result<TableLayout>)
    ensures r.Ok? <==> && nt + OptionalHeaderOffset <= |buf|
                       && TableStart(buf, nt) + SectionSize * SectionCount(buf, nt) <= |buf|
    ensures r.Ok? ==> r.value == TableLayout(TableStart(buf, nt), SectionCount(buf, nt))
    ensures r.Ok? ==> r.value.End() <= |buf|
    ensures r.Err? ==> r.error == Format(Truncated)
  {
    if nt + OptionalHeaderOffset > |buf| then Err(Format(Truncated))
    else
      var layout := TableLayout(TableStart(buf, nt), SectionCount(buf, nt));
      if layout.End() > |buf| then Err(Format(Truncated)) else Ok(layout)
  }

  /** The descriptors of a table, decoded without the leading-'.' check. */
  function DecodeTable(buf: seq<byte>, layout: TableLayout): (table: seq<SectionHeader>)
    requires layout.End() <= |buf|
    ensures |table| == layout.count
    ensures forall j :: 0 <= j < |table| ==> table[j] == DecodeSection(Slot(buf, layout.start, j))
  {
    seq(layout.count, j requires 0 <= j < layout.count => DecodeSection(Slot(buf, layout.start, j)))
  }

  /** The descriptor at index `j` carries the leading '.'. */
  predicate SlotDotted(buf: seq<byte>, start: nat, j: nat)
    requires start + SectionSize * (j + 1) <= |buf|
  {
    DecodeSection(Slot(buf, start, j)).Dotted()
  }

  /** The first descriptor from `i` on whose name lacks the leading '.',
      or `count` when there is none. */
  function FirstUndotted(buf: seq<byte>, start: nat, i: nat, count: nat): (r: nat)
    requires i <= count && start + SectionSize * count <= |buf|
    decreases count - i
    ensures i <= r <= count
    ensures forall j :: i <= j < r ==> SlotDotted(buf, start, j)
    ensures r < count ==> !SlotDotted(buf, start, r)
  {
    if i == count || !SlotDotted(buf, start, i) then i else FirstUndotted(buf, start, i + 1, count)
  }

  /** Walks the descriptors of a table in order, stopping at the first whose
      name lacks the leading '.'; no partial table is returned. */
  function Walk(buf: seq<byte>, layout: TableLayout): (r: Result<seq<SectionHeader>>)
    requires layout.End() <= |buf|
    ensures r.Ok? <==> forall j :: 0 <= j < layout.count ==> SlotDotted(buf, layout.start, j)
    ensures r.Ok? ==> r.value == DecodeTable(buf, layout)
    ensures r.Ok? ==> forall j :: 0 <= j < |r.value| ==> r.value[j].Dotted()
    ensures r.Err? ==> && r.error.Format? && r.error.fault.InvalidSection?
                       && r.error.fault.index < layout.count
                       && !SlotDotted(buf, layout.start, r.error.fault.index)
                       && forall j :: 0 <= j < r.error.fault.index ==> SlotDotted(buf, layout.start, j)
  {
    var stop := FirstUndotted(buf, layout.start, 0, layout.count);
    if stop < layout.count then Err(Format(InvalidSection(stop)))
    else
      var table := DecodeTable(buf, layout);
      assert forall j {:trigger table[j]} :: 0 <= j < |table| ==> SlotDotted(buf, layout.start, j);
      Ok(table)
  }

  /** `FindSections`' walk: the NumberOfSections descriptors of the table
      announced by the NT headers at `nt`, in file order. */
  function ParseSections(buf: seq<byte>, nt: nat): (r: Result<seq<SectionHeader>>)
    ensures r.Ok? ==> && nt + OptionalHeaderOffset <= |buf|
                      && |r.value| == SectionCount(buf, nt)
                      && TableStart(buf, nt) + SectionSize * |r.value| <= |buf|
                      && forall i :: 0 <= i < |r.value| ==>
                           && r.value[i] == DecodeSection(Slot(buf, TableStart(buf, nt), i))
                           && r.value[i].Dotted()
    ensures r.Ok? <==> && LocateTable(buf, nt).Ok?
                       && forall i :: 0 <= i < SectionCount(buf, nt) ==> SlotDotted(buf, TableStart(buf, nt), i)
    ensures LocateTable(buf, nt).Err? ==> r == Err(LocateTable(buf, nt).error)
    ensures LocateTable(buf, nt).Ok? && r.Err? ==>
      && r.error.Format? && r.error.fault.InvalidSection?
      && r.error.fault.index < SectionCount(buf, nt)
      && !SlotDotted(buf, TableStart(buf, nt), r.error.fault.index)
      && forall j :: 0 <= j < r.error.fault.index ==> SlotDotted(buf, TableStart(buf, nt), j)
  {
    match LocateTable(buf, nt)
    case Err(e) => Err(e)
    case Ok(layout) => Walk(buf, layout)
  }

  /** The converse of `ParseSections`' contract: a located table whose slots
      decode to dotted records `table` enumerates as exactly `table`. */
  lemma ParseSectionsExact(buf: seq<byte>, nt: nat, table: seq<SectionHeader>)
    requires LocateTable(buf, nt).Ok?
    requires |table| == SectionCount(buf, nt)
    requires forall j :: 0 <= j < |table| ==>
      DecodeSection(Slot(buf, TableStart(buf, nt), j)) == table[j] && table[j].Dotted()
    ensures ParseSections(buf, nt) == Ok(table)
  {
    var start := TableStart(buf, nt);
    forall j | 0 <= j < SectionCount(buf, nt)
      ensures SlotDotted(buf, start, j)
    {
      assert DecodeSection(Slot(buf, start, j)) == table[j];
    }
    var r := ParseSections(buf, nt);
    assert r.Ok?;
    assert |r.value| == |table|;
    forall j | 0 <= j < |table|
      ensures r.value[j] == table[j]
    {
    }
    assert r.value == table;
  }

  /** The descriptors of `table`, back to back. */
  function EncodeTable(table: seq<SectionHeader>): (s: seq<byte>)
    requires forall i :: 0 <= i < |table| ==> table[i].Valid()
    ensures |s| == SectionSize * |table|
  {
    if |table| == 0 then [] else EncodeSection(table[0]) + EncodeTable(table[1..])
  }

  lemma {:induction false} EncodeTableSlot(table: seq<SectionHeader>, i: nat)
    requires forall j :: 0 <= j < |table| ==> table[j].Valid()
    requires i < |table|
    ensures EncodeTable(table)[SectionSize * i .. SectionSize * i + SectionSize] == EncodeSection(table[i])
  {
    var s := EncodeTable(table);
    if i > 0 {
      EncodeTableSlot(table[1..], i - 1);
      assert s == EncodeSection(table[0]) + EncodeTable(table[1..]);
      assert s[SectionSize * i .. SectionSize * i + SectionSize]
          == EncodeTable(table[1..])[SectionSize * (i - 1) .. SectionSize * (i - 1) + SectionSize];
    }
  }

  /** A table written at `start` reads back as the same records. */
  lemma WrittenTableDecodes(buf: seq<byte>, start: nat, table: seq<SectionHeader>, i: nat)
    requires forall j :: 0 <= j < |table| ==> table[j].Valid()
    requires start + SectionSize * |table| <= |buf|
    requires i < |table|
    ensures DecodeSection(Slot(Overwrite(buf, start, EncodeTable(table)), start, i)) == table[i]
  {
    SlotInside(i, |table|);
    OverwrittenSlot(buf, start, EncodeTable(table), i);
    EncodeTableSlot(table, i);
    DecodeEncodeSection(table[i]);
  }

  /** Slot `i` of a table written over `buf` at `start` is the matching slice of what was written. */
  lemma OverwrittenSlot(buf: seq<byte>, start: nat, enc: seq<byte>, i: nat)
    requires start + |enc| <= |buf|
    requires SectionSize * i + SectionSize <= |enc|
    ensures Slot(Overwrite(buf, start, enc), start, i) == enc[SectionSize * i .. SectionSize * i + SectionSize]
  {
    SliceShift(Overwrite(buf, start, enc), start + SectionSize * i, enc, SectionSize * i, SectionSize);
  }

  /** The name as `std::string((char*)Name)` sees it, confined to the
      descriptor's own bytes: everything before the first NUL. */
  function CName(name: seq<byte>): (c: seq<byte>)
    ensures |c| <= |name| && c == name[..|c|]
    ensures forall i :: 0 <= i < |c| ==> c[i] != 0
    ensures |c| < |name| ==> name[|c|] == 0
  {
    if |name| == 0 || name[0] == 0 then [] else [name[0]] + CName(name[1..])
  }

  /** A name of at most eight non-NUL bytes, padded with NULs to the field width. */
  function PadName(query: seq<byte>): (name: seq<byte>)
    requires |query| <= NameLength
    ensures |name| == NameLength
  {
    query + Zeros(NameLength - |query|)
  }

  /** A padded name reads back as the name it was padded from. */
  lemma PadNameRoundTrip(query: seq<byte>)
    requires |query| <= NameLength
    requires forall i :: 0 <= i < |query| ==> query[i] != 0
    ensures CName(PadName(query)) == query
  {
    var name := PadName(query);
    assert forall i :: 0 <= i < |query| ==> name[i] == query[i];
    assert |query| < |name| ==> name[|query|] == 0;
  }

  predicate Matches(h: SectionHeader, query: seq<byte>)
  {
    CName(h.name) == query
  }

  /** The index of the first descriptor named `query`. */
  function FindByName(table: seq<SectionHeader>, query: seq<byte>): (r: Option<nat>)
    ensures r.Some? ==> && r.value < |table|
                        && Matches(table[r.value], query)
                        && forall j :: 0 <= j < r.value ==> !Matches(table[j], query)
    ensures r.None? <==> forall j :: 0 <= j < |table| ==> !Matches(table[j], query)
  {
    if |table| == 0 then None
    else if Matches(table[0], query) then Some(0)
    else match FindByName(table[1..], query)
      case None => None
      case Some(k) => Some(k + 1)
  }

  /** `GetSection`: a copy of the first descriptor named `query`. */
  function GetSection(table: seq<SectionHeader>, query: seq<byte>): (r: Result<SectionHeader>)
    ensures r.Ok? <==> exists j :: 0 <= j < |table| && Matches(table[j], query)
    ensures r.Ok? ==> Matches(r.value, query)
    ensures r.Ok? ==> exists k :: && 0 <= k < |table| && r.value == table[k]
                                  && forall j :: 0 <= j < k ==> !Matches(table[j], query)
    ensures r.Err? ==> r.error == NotFound
  {
    match FindByName(table, query)
    case Some(k) => Ok(table[k])
    case None => Err(NotFound)
  }

  /** Enumeration reads only NumberOfSections, SizeOfOptionalHeader and the
      table itself: two buffers of equal length that agree there enumerate alike. */
  lemma SameTableParses(a: seq<byte>, b: seq<byte>, nt: nat)
    requires |a| == |b|
    requires LocateTable(a, nt).Ok?
    requires a[nt + NumberOfSectionsOffset .. nt + NumberOfSectionsOffset + 2]
          == b[nt + NumberOfSectionsOffset .. nt + NumberOfSectionsOffset + 2]
    requires a[nt + SizeOfOptionalHeaderOffset .. nt + SizeOfOptionalHeaderOffset + 2]
          == b[nt + SizeOfOptionalHeaderOffset .. nt + SizeOfOptionalHeaderOffset + 2]
    requires a[TableStart(a, nt) .. LocateTable(a, nt).value.End()] == b[TableStart(a, nt) .. LocateTable(a, nt).value.End()]
    ensures ParseSections(b, nt) == ParseSections(a, nt)
  {
    var layout := LocateTable(a, nt).value;
    assert LocateTable(b, nt) == LocateTable(a, nt);
    assert TableStart(b, nt) == layout.start && SectionCount(b, nt) == layout.count;
    forall j | 0 <= j < layout.count
      ensures Slot(b, layout.start, j) == Slot(a, layout.start, j)
    {
      SlotWithin(a, b, layout, j);
    }
    WalkAgrees(a, b, layout);
  }

  /** The walk reads only the slots: tables whose slots agree walk alike. */
  lemma WalkAgrees(a: seq<byte>, b: seq<byte>, layout: TableLayout)
    requires layout.End() <= |a| && layout.End() <= |b|
    requires forall j :: 0 <= j < layout.count ==> Slot(a, layout.start, j) == Slot(b, layout.start, j)
    ensures Walk(a, layout) == Walk(b, layout)
  {
    FirstUndottedAgrees(a, b, layout.start, 0, layout.count);
    assert DecodeTable(a, layout) == DecodeTable(b, layout);
  }

  lemma {:induction false} FirstUndottedAgrees(a: seq<byte>, b: seq<byte>, start: nat, i: nat, count: nat)
    requires i <= count && start + SectionSize * count <= |a| && start + SectionSize * count <= |b|
    requires forall j :: i <= j < count ==> Slot(a, start, j) == Slot(b, start, j)
    decreases count - i
    ensures FirstUndotted(a, start, i, count) == FirstUndotted(b, start, i, count)
  {
    if i < count {
      assert SlotDotted(a, start, i) == SlotDotted(b, start, i);
      FirstUndottedAgrees(a, b, start, i + 1, count);
    }
  }

  /** A slot of the table is a slice of the table's bytes. */
  lemma SlotWithin(a: seq<byte>, b: seq<byte>, layout: TableLayout, j: nat)
    requires |a| == |b| && layout.End() <= |a| && j < layout.count
    requires a[layout.start .. layout.End()] == b[layout.start .. layout.End()]
    ensures Slot(b, layout.start, j) == Slot(a, layout.start, j)
  {
    SlotInside(j, layout.count);
    var lo := layout.start + SectionSize * j;
    forall i | lo <= i < lo + SectionSize
      ensures a[i] == b[i]
    {
      assert a[layout.start .. layout.End()][i - layout.start] == b[layout.start .. layout.End()][i - layout.start];
    }
    SliceAgree(a, b, lo, lo + SectionSize);
  }
}
